=== FILE: README.md ===
# depwner file classification, modelled in Dafny

This project models the file-classification engine of depwner, a desktop
malware scanner, and proves properties of that model. The engine lives in
three source files:

- `scanner/scanner.cjs` is the scanner the desktop host drives. Its `scanFile`
  classifies one file by climbing a fixed ladder, in this order: hash error,
  whitelist, curated family catalogue (`data/hash.csv` with `data/info.json`),
  the SQLite table `malware_hashes`, YARA. When every tier misses and a
  database is connected, it learns the hash as clean. A hit moves the file into
  quarantine and appends a record to `data/quarantine.json`. `scanFolder`
  enumerates a tree, scans each file in order, publishes progress, tallies the
  results and appends one entry to `data/logs.json`. The file also holds the
  CSV import into SQLite, the `checkHash` query, `scanInput` and the
  command-line loop.
- `scanner/scanner.mjs` is the stand-alone, set-based scanner. It loads a CSV
  export into a set of MD5 hashes with their signatures, cached for the
  process. It also loads a directory of hash lists into a second set. Its
  `scanFile` checks the first set, then the second, then YARA, and changes
  nothing on disk.
- `static/update_database.py` merges a feed of MD5 hashes into
  `malware_hashes`, inserting only hashes that are not stored yet and
  counting them.

The model follows the form of each source part:

- The `scanFile` ladder of the `.cjs` scanner is one pure function,
  `Classifier.ScanFileSpec`. It maps the disk before the call to the result and
  the disk after it.
- The class `Host.Host` holds the scanner's files on disk (file contents,
  whitelist text, ledger, scan log). Its methods are the imperative helpers
  (`loadWhitelist`, `moveToQuarantine`, `updateQuarantineJson`, ...) and the
  step-by-step `scanFile` and `scanFolder`. Each is proved against the pure
  specification.
- `global.scanStatus` is the class `Host.ScanStatus`. `global.dbConnection` is
  `CsvImport.Connector`, and `global.preloadedCsvData` is
  `BloomLoader.CsvCache`.
- The SQLite table is the class `Store.Database`, with a map of rows.
- The `readline` handler of `loadCsvToBloom` is the class
  `BloomLoader.LineHandler`, with the handler's closure variables as fields.
- Every loop of the source is a `method` with a loop and its invariants. The
  loop's result is tied to a function that is defined by recursion over the
  input.

Modules:

| module | file | models |
|---|---|---|
| `Base` | base.dfy | `Option`, `Result`, JavaScript truthiness of an optional string |
| `Text` | text.dfy | `trim`/`strip`, one-character `split`, `split(/\r?\n/)`, the quote-stripping regular expressions, `toLowerCase`, `indexOf` |
| `Files` | files.dfy | paths, `path.basename`, the directory tree and `getAllFiles`, `computeHashes`, `runYaraScan` |
| `Store` | store.dfy | the `malware_hashes` table |
| `Ledger` | ledger.dfy | `data/quarantine.json` |
| `Classifier` | classifier.dfy | the `.cjs` `scanFile` ladder and its lookups, as functions and lemmas |
| `Host` | host.dfy | the `.cjs` helpers, `scanFile` and `scanFolder`, as methods over mutable state |
| `CsvImport` | csv_import.dfy | `importCsvToDb` and the connection cache of `loadCsvToBloom` in the `.cjs` scanner |
| `Args` | args.dfy | the command-line loop both scanners share |
| `Cli` | cli.dfy | `scanInput` and the command line of the `.cjs` scanner |
| `BloomLoader` | bloom_loader.dfy | `loadCsvToBloom` and `loadBloomFilter` of the `.mjs` scanner |
| `BloomScanner` | bloom_scanner.dfy | `scanFile`, `scanFolder`, `scanInput` and the command line of the `.mjs` scanner |
| `FeedUpdater` | feed_updater.dfy | `update_database` |

Oracles and inputs:

- The file system is a map from path to bytes.
- MD5 is a function `Bytes -> string`.
- The YARA process is a function from rules and file to the exit status and
  output of `spawnSync`.
- Whether `renameSync` succeeds is a predicate on the path.
- The catalogue is the sequence of its CSV rows, and `info.json` is the parsed
  list or `None`.
- The directory tree is a `Listing` value in `readdir` order.
- Files read by `readline` or by Python's line iteration are given as their
  lines.
- The clock of the feed updater is a function from the number of the
  insertion to the time text.
- The `Date.now()` reading in the `.cjs` `scanFolder` is the parameter `now`.

## Model

| member | source | states |
|---|---|---|
| Text.TrimStart | scanner/scanner.cjs:50 | the result is a suffix of the input that does not start with whitespace, and every character dropped is whitespace |
| Text.TrimEnd | scanner/scanner.cjs:50 | the result is a prefix of the input that does not end with whitespace, and every character dropped is whitespace |
| Text.Trim | scanner/scanner.cjs:50 | `trim()` is no longer than its input and neither starts nor ends with whitespace |
| Text.TrimDropsOnlySpace | scanner/scanner.cjs:50 | `trim()` is a contiguous part of its input, and every character before and after that part is whitespace |
| Text.Split | scanner/scanner.cjs:49 | `split` always yields at least one piece |
| Text.SplitPieceIsPart | scanner/scanner.cjs:49 | every character of every piece comes from the input and is not the separator |
| Text.JoinSplit | scanner/scanner.cjs:49 | joining the pieces of `split` with the separator gives the string back |
| Text.SplitAppend | scanner/scanner.cjs:237 | splitting `a + sep + b` gives the pieces of `a` followed by the pieces of `b`, which is what an appended whitelist line does to the file |
| Text.SplitNoSep | scanner/scanner.cjs:49 | a string without the separator is one piece |
| Text.SplitCrLf | scanner/scanner.mjs:76 | `split(/\r?\n/)` yields one piece per piece of splitting at `\n`. Each piece is that piece or that piece without one final `\r`, and the last piece keeps its `\r` as in JavaScript |
| Text.SplitCrLfWithoutCr | scanner/scanner.mjs:76 | a text without `\r` splits at `\r?\n` exactly as at `\n` |
| Text.TrimmedSetMembers | scanner/scanner.cjs:49-52 | the set built from the lines holds exactly the trimmed forms of the non-blank lines |
| Text.TrimmedSetPointwise | scanner/scanner.mjs:77-83 | two line lists that trim alike build the same set |
| Text.TrimDropCr | scanner/scanner.mjs:76-78 | a `\r` left at the end of a piece does not survive `trim()` |
| Text.TrimmedSetCrLf | scanner/scanner.mjs:76-83 | after trimming, splitting at `\r?\n` and at `\n` collect the same set of lines |
| Text.Unquote | scanner/scanner.cjs:91 | removes at most one leading and one trailing quote, and nothing else. An unquoted string is left alone. A quoted string becomes its inside, a lone quote becomes empty, and a quote on one side only is removed from that side |
| Text.UnquoteQuoted | scanner/scanner.cjs:163-175 | a hash wrapped in double quotes is unwrapped by either quote-stripping pattern |
| Text.Lower | scanner/scanner.cjs:91 | `toLowerCase()` keeps the length and leaves no letter `A`-`Z`. Each such letter becomes its lower-case letter, 32 code points up, and every other character is kept |
| Text.LowerIdempotent | scanner/scanner.cjs:205 | lower-casing twice is lower-casing once |
| Text.IndexOf | scanner/scanner.cjs:92-94 | `indexOf` is -1 exactly when the value is absent, and otherwise a position holding it |
| Text.IndexOfIsFirst | scanner/scanner.cjs:92-94 | no earlier position holds the value, so the first matching header column wins |
| Files.BasenameIsLastSegment | scanner/scanner.cjs:246 | `path.basename` is the longest suffix without `/`: it is the whole path or preceded by `/` |
| Files.BasenameOfJoin | scanner/scanner.cjs:246-247 | the base name of `join(dir, name)` is `name` |
| Files.JoinPath | scanner/scanner.cjs:450 | models `path.join(dir, file)`. A `.` or empty directory is dropped and a trailing `/` is not doubled. Its base name is stated by `Files.BasenameOfJoin` |
| Files.Basename | scanner/scanner.cjs:246 | models `path.basename`; `Files.BasenameIsLastSegment` states it is the last `/`-free segment |
| Files.AllFiles | scanner/scanner.cjs:445-461 | models the result of `getAllFiles`: a depth-first list of the files in `readdir` order, or the first `readdirSync`/`statSync` error. The method `Files.GetAllFiles` is proved to return it, and the `AllFiles...` lemmas give its members and failures |
| Files.GetAllFiles | scanner/scanner.cjs:445-461 | the loop over `readdir` entries with recursion into directories returns `AllFiles` of the tree, including the error when a `readdirSync` or `statSync` throws |
| Files.EntriesFailurePersists | scanner/scanner.cjs:449-457 | once an entry throws, the remaining entries are never looked at |
| Files.AllFilesFailsIffBroken | scanner/scanner.mjs:178-191 | enumeration throws exactly when some directory or entry of the tree cannot be read |
| Files.EntriesFailsIffBroken | scanner/scanner.mjs:181-189 | the same for a list of entries |
| Files.AllFilesMembers | scanner/scanner.mjs:178-191 | a successful enumeration lists exactly the non-directory entries reachable from the root |
| Files.EntriesMembers | scanner/scanner.mjs:181-189 | the same for a list of entries |
| Files.ComputeHash | scanner/scanner.cjs:202-211 | a hash is computed exactly when the file can be read |
| Files.RunYara | scanner/scanner.cjs:213-233 | YARA reports a match only when it is enabled, exits with status 0 and prints something; the match is the trimmed output |
| Store.InsertOrIgnore | scanner/scanner.cjs:83 | `INSERT OR IGNORE` adds the key, gives a new key the given row, and never changes a stored row |
| Store.Database.CreateTableIfNotExists | static/update_database.py:34-41 | creates the table and keeps the rows |
| Store.Database.Contains | static/update_database.py:49-50 | `SELECT 1 ... WHERE md5_hash = ?` finds a row exactly when the key is stored |
| Store.Database.InsertIgnoring | scanner/scanner.cjs:107 | the prepared `INSERT OR IGNORE` changes the rows as `InsertOrIgnore` |
| Store.Database.Insert | static/update_database.py:56-59 | a plain `INSERT` succeeds exactly when the key is new, and then adds that row only |
| Ledger.ReadLedger | scanner/scanner.cjs:260-272 | a missing, blank or unparseable ledger reads as `[]` |
| Ledger.AppendRecord | scanner/scanner.cjs:258-276 | the ledger written back keeps every record it read, in order, and has the new record last |
| Classifier.HexDigestIsOneLine | scanner/scanner.cjs:205 | a lower-case hex digest is non-empty, has no line break and is its own trim |
| Classifier.WhitelistSet | scanner/scanner.cjs:43-56 | models the set `loadWhitelist` returns: the non-blank trimmed lines of the file, empty without a file. `Host.Host.LoadWhitelist` is proved to compute it |
| Classifier.AppendWhitelist | scanner/scanner.cjs:235-238 | models `appendFileSync(whitelist, hash + "\n")`, creating the file when it is missing. `Classifier.AppendWhitelistAdds` and `Classifier.UnterminatedWhitelistSwallowsHash` state its effect on the set |
| Classifier.AppendWhitelistAdds | scanner/scanner.cjs:235-238 | appending `hash + "\n"` to a well-formed whitelist adds exactly that hash to the loaded set and keeps the file well-formed |
| Classifier.UnterminatedWhitelistSwallowsHash | scanner/scanner.cjs:235-238 | a whitelist whose one line has no final line break loads as that line, and after the append it loads as the single glued line `line + hash`. The set holds neither the old line nor the hash |
| Classifier.WhitelistSetBefore | scanner/scanner.cjs:43-56 | a well-formed whitelist loads as the set of its complete lines |
| Classifier.EmptyTextHasNoLines | scanner/scanner.cjs:47-52 | an empty whitelist loads as the empty set |
| Classifier.CompleteLinesSet | scanner/scanner.cjs:49-52 | the empty piece after the final line break adds nothing |
| Classifier.WhitelistSetAfter | scanner/scanner.cjs:235-238 | after the append, the set is the old lines plus the new hash |
| Classifier.SplitOfLines | scanner/scanner.cjs:237 | the pieces of a well-formed text with one more line appended |
| Classifier.TrimmedSetSnoc | scanner/scanner.cjs:49-52 | one more line adds its trimmed form if it is not blank |
| Classifier.FamilyName | scanner/scanner.cjs:16-31 | models `getDirectoryNameForHash` over the parsed rows: each matching row overwrites the result. `Classifier.FamilyNameIsLastMatch` states its meaning |
| Classifier.FamilyNameIsLastMatch | scanner/scanner.cjs:16-31 | the catalogue lookup is `null` exactly when no row has the hash, and otherwise the directory of the last matching row |
| Classifier.FirstNamed | scanner/scanner.cjs:36 | a found entry belongs to the list and carries the name |
| Classifier.FindInfo | scanner/scanner.cjs:33-41 | `getMalwareInfo` finds an entry only for a known directory in a readable `info.json` |
| Classifier.FirstNamedIsFirst | scanner/scanner.cjs:36 | `find` fails exactly when no entry has the name, and otherwise returns the first entry that has it |
| Classifier.CheckHash | scanner/scanner.cjs:161-186 | models the `checkHash` query for the bare or double-quoted hash, with the quotes stripped from the signature. `Classifier.CheckHashFindsBareOrQuoted` states when it matches and which row it returns |
| Classifier.CheckHashFindsBareOrQuoted | scanner/scanner.cjs:161-186 | `checkHash` matches exactly when the table holds the hash bare or wrapped in `"`, and returns that row's values |
| Classifier.MoveFile | scanner/scanner.cjs:250 | models `renameSync(from, to)` on the file map: the contents move to the new path. `Classifier.ScanFileEffects` and `Host.Host.MoveToQuarantine` use it to state what a quarantine does |
| Classifier.ScanFileSpec | scanner/scanner.cjs:278-443 | models `scanFile` as the result and the disk after it: hash error, whitelist, catalogue with a successful move, then `StoreTier`. Its properties are the lemmas below, and `Host.Host.ScanFile` is proved to compute it |
| Classifier.StoreTier | scanner/scanner.cjs:350-381 | models the database tier: a `checkHash` match is final, quarantined exactly when the move succeeds; otherwise `YaraTier` decides. `Classifier.StoreTierEffects` and `Classifier.StoreHitPrecedesYara` state its properties |
| Classifier.YaraTier | scanner/scanner.cjs:383-442 | models both YARA branches: a YARA match is final; without a database a miss is `{matched: false, result: null}`, with one the hash is learned. `Classifier.YaraTierEffects` and `Classifier.LearningNeedsDatabase` state its properties |
| Classifier.HashErrorChangesNothing | scanner/scanner.cjs:280-287 | an unreadable file gives `hash_error` before any lookup and leaves the disk unchanged |
| Classifier.WhitelistedChangesNothing | scanner/scanner.cjs:289-300 | a whitelisted hash gives an unmatched `whitelist` result and leaves the disk unchanged |
| Classifier.QuarantineAndLogEffects | scanner/scanner.cjs:312-334 | a move followed by a ledger append has exactly the effects a quarantined result allows |
| Classifier.YaraTierEffects | scanner/scanner.cjs:383-442 | the YARA tier and the learning step have only the effects their result allows |
| Classifier.StoreTierEffects | scanner/scanner.cjs:350-381 | the database tier and what follows have only the effects their result allows |
| Classifier.ScanFileEffects | scanner/scanner.cjs:278-443 | every call changes only what its result allows. A quarantined result moved the file and appended one ledger record about it. Otherwise files and ledger are untouched. Only a learned hash, the file's own digest, is appended to the whitelist. The scan log never changes |
| Classifier.QuarantinedIffMoved | scanner/scanner.cjs:355-406 | a matched result is `quarantined` exactly when the rename succeeds |
| Classifier.FailedFamilyMoveFallsThrough | scanner/scanner.cjs:311-348 | when the move fails, a catalogue hit counts for nothing: the call behaves as with an empty catalogue and never returns the family result |
| Classifier.FamilyHitPrecedesStore | scanner/scanner.cjs:311-347 | a moved catalogue hit is final, whatever the database and rules |
| Classifier.StoreHitPrecedesYara | scanner/scanner.cjs:350-381 | a database hit is final whatever YARA says, and is quarantined exactly when the move succeeds |
| Classifier.LearningNeedsDatabase | scanner/scanner.cjs:383-408 | a hash is learned only with a database; without one a total miss is `{matched: false, result: null}` and changes nothing |
| Classifier.LearnedThenWhitelisted | scanner/scanner.cjs:434-442 | for a whitelist that is missing, empty or ends in a line break, a learned file is reported `whitelist` on its next scan, with no further change. `Classifier.UnterminatedWhitelistSwallowsHash` shows that this fails for a whitelist without a final line break |
| Host.ScanStatus.Publish | scanner/scanner.cjs:492-518 | sets `currentFile` and `progress`, records the value written, and changes nothing else |
| Host.Tally | scanner/scanner.cjs:494-502 | models the counting in `scanFolder`: whitelisted, newly whitelisted, YARA and other matches, each with its list. `Host.TallyCounts` and `Host.TallyMembers` state its properties |
| Host.TallyCounts | scanner/scanner.cjs:494-502 | the counters agree with the lists, matches split into the two types, and `whitelisted + new_whitelisted + matches` is at most the number of files |
| Host.TallyMembers | scanner/scanner.cjs:494-502 | each result list holds exactly the results of its kind |
| Host.ScanAllEffects | scanner/scanner.cjs:490-491 | a run over the files yields one result per file, leaves the scan log alone, and appends one ledger record per quarantined file, keeping the old ones |
| Host.Host.LoadWhitelist | scanner/scanner.cjs:43-56 | the loop over the lines yields the set of non-empty trimmed lines, and the empty set without a file |
| Host.Host.ComputeHashes | scanner/scanner.cjs:202-211 | the lower-cased digest of a readable file, `null` otherwise |
| Host.Host.AddToWhitelist | scanner/scanner.cjs:235-238 | appends `hash + "\n"` to the whitelist and touches nothing else |
| Host.Host.MoveToQuarantine | scanner/scanner.cjs:240-256 | returns the new path exactly when the file exists and the rename succeeds, and moves the file under `data/quarantine` with its base name; otherwise changes nothing |
| Host.Host.UpdateQuarantineJson | scanner/scanner.cjs:258-276 | rewrites the ledger as `AppendRecord` and touches nothing else |
| Host.Host.ScanFile | scanner/scanner.cjs:278-443 | the step-by-step `scanFile` returns the result of `ScanFileSpec` and leaves the disk it specifies |
| Host.Host.ScanNext | scanner/scanner.cjs:490-520 | one turn of the loop: the next file is scanned on the disk the earlier ones left, counted, and `currentFile`/`progress` are published |
| Host.Host.ScanEach | scanner/scanner.cjs:489-520 | the loop gives the results and disk of scanning the files in order, their tally, `progress` equal to the file count, `currentFile` the last file, and `progress` written as 1, 2, ..., n |
| Host.Host.ScanFolder | scanner/scanner.cjs:463-549 | enumeration errors propagate and an empty tree returns early, both changing nothing. Otherwise every file is scanned in order and the report holds the count, the tally and `total_matches`. A missing log throws after the scan. A present log gains exactly one entry `{scanType, filesScanned, threats, time, folder}`, with `time` the clock reading `now`, and `status` becomes `completed` |
| CsvImport.HeaderCells | scanner/scanner.cjs:91 | the header has one cell per raw cell. Each cell is the raw cell trimmed, unquoted and lower-cased, and no cell holds a letter `A`-`Z` |
| CsvImport.ParseLine | scanner/scanner.cjs:99-108 | models one data line: nothing for a blank line or an empty or missing hash cell, otherwise the hash cell and the other two cells, with `''` for a missing cell. `CsvImport.ImportCountIsAccepted` and `CsvImport.ImportFirstWins` state what the lines add up to |
| CsvImport.ImportSpec | scanner/scanner.cjs:75-110 | models `importCsvToDb`: the first line is the header and the rest are inserted in order. The `CsvImport.Import...` lemmas state its properties, and `CsvImport.ImportCsvToDb` is proved to compute it |
| CsvImport.ImportFirstWins | scanner/scanner.cjs:83-109 | import never overwrites: a stored hash keeps its row, and a new hash gets the row of its first line and nothing else |
| CsvImport.ImportCountBoundsGrowth | scanner/scanner.cjs:99-109 | import only adds keys, at most `count` of them, and `count` is at most the number of lines |
| CsvImport.ImportCountIsAccepted | scanner/scanner.cjs:99-109 | `count` is the number of data lines with a non-empty hash cell, ignored duplicates included |
| CsvImport.NoHashColumnImportsNothing | scanner/scanner.cjs:92-106 | without an `md5_hash` column no row is inserted and `count` is 0 |
| CsvImport.MissingHashColumn | scanner/scanner.cjs:89-106 | a header without `md5_hash` imports nothing from the whole file |
| CsvImport.ImportRow | scanner/scanner.cjs:99-109 | one line: the table and `count` follow `ImportLines` over one more line |
| CsvImport.ImportData | scanner/scanner.cjs:89-110 | the loop over the data lines leaves the table and `count` of `ImportLines` |
| CsvImport.ImportCsvToDb | scanner/scanner.cjs:75-114 | the first line is the header and the rest are imported as `ImportSpec` says |
| CsvImport.Connector.LoadCsvToBloom | scanner/scanner.cjs:117-159 | a cached connection is returned untouched. Otherwise the table is created, seeded from the CSV only when it is empty and the path ends in `.csv`, and cached |
| Args.ParseArgs | scanner/scanner.cjs:614-638 | the `switch` loop gives the flags of `Parse`, or the unknown-argument error |
| Args.Parse | scanner/scanner.cjs:617-637 | models the `switch` loop: a known flag takes the next argument, `undefined` past the end, and anything else stops with `Unknown argument`. `Args.ParseKnownOnly`, `Args.ParseFailureNamesUnknown` and `Args.ParseRender` state its properties |
| Args.ParseKnownOnly | scanner/scanner.cjs:617-633 | a parsed command line sets only known flags |
| Args.ParseFailureNamesUnknown | scanner/scanner.cjs:634-636 | a rejected command line names an argument that is not a flag |
| Args.ParseRender | scanner/scanner.mjs:276-297 | a command line laid out from flag/value pairs parses back to those pairs, the last one winning |
| Cli.CommandLineRoundTrip | scanner/scanner.cjs:614-641 | each of the five options given on the command line reaches `scanInput` as given |
| Cli.CommandLine | scanner/scanner.cjs:614-641 | models the command line of the `.cjs` scanner: the flags of `Args.Parse` with the loop's defaults. `Cli.CommandLineRoundTrip`, `Cli.EmptyCommandLineDefaults` and `Cli.UnknownArgumentRejected` state its properties |
| Cli.EmptyCommandLineDefaults | scanner/scanner.cjs:615 | omitted options keep the loop's defaults: no database and `./output.yarc` |
| Cli.UnknownArgumentRejected | scanner/scanner.cjs:634-636 | an argument that is not a flag stops the process with its message |
| Cli.YaraStatusLine | scanner/scanner.cjs:600 | models the status line as written: a `TypeError` without `global.settings`, else the text. `Cli.YaraStatusLineThrowsWithoutSettings` and `Cli.YaraStatusLineSafe` state its properties |
| Cli.YaraStatusLineThrowsWithoutSettings | scanner/scanner.cjs:600 | as written, the closing status line throws a `TypeError` when `global.settings` is undefined |
| Cli.YaraStatusLineSafe | scanner/scanner.cjs:600 | the corrected status line agrees with the written one whenever that one succeeds, and reads `undefined` otherwise |
| Cli.OpenedRows | scanner/scanner.cjs:575-582 | models which rows `dbConnection` holds: none without a path, the cached connection's rows, or the rows of `db` seeded from the CSV text when they are empty and the path ends in `.csv`. `Cli.OpenDatabase` and `Cli.ScanInput` are stated with it |
| Cli.OpenDatabase | scanner/scanner.cjs:575-582 | returns `OpenedRows` of the state before the call. Without a database path nothing is opened and no rows are used. With one, a cached connection is kept, `db` is not touched, and the cached rows are used. Otherwise `db` is opened and cached, and its rows are used, seeded by `ImportSpec` when they were empty and the path ends in `.csv` |
| Cli.ScanInput | scanner/scanner.cjs:562-600 | throws exactly when both targets are missing, changing nothing. Otherwise a cached connection is kept and `db` is not touched, a first call caches `db`, and no database path changes neither. The scan uses the rows `OpenedRows` gives for the state before the call, and the connection still holds exactly those rows afterwards, so a later call scans them too. A file target gives `ScanFileSpec`'s result and disk, with the rules `yaraPath` or `./output.yarc`, and leaves the scan status alone. A folder scan fails exactly when enumeration does, and returns early exactly when there are no files, in both cases changing no file and no status. Otherwise it scans in order, throws after the scan when the log cannot be written, and else appends one log entry and sets `status` to `completed`. The closing status line is the corrected `Cli.YaraStatusLineSafe` (see "## Findings"), so an accepted scan never throws there |
| BloomLoader.CellOrNA | scanner/scanner.mjs:42-43 | a present non-empty cell is returned as it is; a missing or empty cell becomes `"N/A"` |
| BloomLoader.AcceptLine | scanner/scanner.mjs:35-46 | models one data line: nothing for a blank line, a missing column or an empty hash cell; otherwise the trimmed, unquoted, lower-cased hash with the two cells. `BloomLoader.LoadedMembers` and `BloomLoader.LastRowWins` state what the lines add up to |
| BloomLoader.SignaturesCoverSet | scanner/scanner.mjs:40-44 | every hash in the set has a signatures entry, and every entry is in the set |
| BloomLoader.LastRowWins | scanner/scanner.mjs:38-45 | a hash is in the set exactly when some accepted row has it, and its signatures entry holds the values of the last such row |
| BloomLoader.LoadedMembers | scanner/scanner.mjs:36-46 | the set holds exactly the trimmed, unquoted, lower-cased hashes of the accepted lines |
| BloomLoader.HashCountBounds | scanner/scanner.mjs:40-45 | the set is no larger than `hashCount`, which is at most the number of data lines |
| BloomLoader.HashCountIsAccepted | scanner/scanner.mjs:36-46 | `hashCount` is the number of accepted rows, repeated hashes included |
| BloomLoader.NoHashColumnLoadsNothing | scanner/scanner.mjs:38 | without an `md5_hash` column nothing is loaded |
| BloomLoader.MissingHashColumnLoadsNothing | scanner/scanner.mjs:28-38 | a header without `md5_hash` loads nothing from the whole file |
| BloomLoader.LoadSpec | scanner/scanner.mjs:23-48 | models a whole read: the first line fixes the columns and the rest are data. The `BloomLoader` lemmas state its properties, and `BloomLoader.LineHandler.ReadLines` is proved to compute it |
| BloomLoader.LineHandler.constructor | scanner/scanner.mjs:18-25 | the handler starts before the header, with an empty set, no signatures and a zero count |
| BloomLoader.LineHandler.OnLine | scanner/scanner.mjs:27-48 | the first line only fixes the column indices; every later line is handled as `LoadStep` |
| BloomLoader.LineHandler.OnHeader | scanner/scanner.mjs:28-34 | the header branch sets the indices and the flag and loads nothing |
| BloomLoader.LineHandler.OnDataLine | scanner/scanner.mjs:35-47 | a data line changes the set, signatures and count as `LoadStep`, and keeps the indices |
| BloomLoader.LineHandler.Record | scanner/scanner.mjs:39-45 | adds the hash, sets its signatures entry and increments `hashCount` |
| BloomLoader.LineHandler.ReadLines | scanner/scanner.mjs:23-48 | feeding every line to a fresh handler leaves it holding `LoadSpec` of the lines |
| BloomLoader.LineHandler.ReadData | scanner/scanner.mjs:35-47 | the lines after the header leave it holding `LoadLines` of them |
| BloomLoader.LineHandler.ReadNext | scanner/scanner.mjs:35-47 | one more data line extends the handler's state from `LoadLines` of the earlier lines to `LoadLines` of one more line, keeping the column indices |
| BloomLoader.ReadCsv | scanner/scanner.mjs:18-56 | an uncached load returns the set and signatures of `LoadSpec` |
| BloomLoader.CsvCache.LoadCsvToBloom | scanner/scanner.mjs:11-60 | a cached result is returned without reading and the cache is kept; otherwise the lines are loaded and the result is cached |
| BloomLoader.BloomSet | scanner/scanner.mjs:63-90 | models what `loadBloomFilter` gathers: the non-blank trimmed lines of every readable file. `BloomLoader.BloomSetMembers` states its members |
| BloomLoader.BloomSetMembers | scanner/scanner.mjs:63-90 | a hash is loaded exactly when some readable file has it on a line of its own; an unreadable file contributes nothing |
| BloomLoader.AddLines | scanner/scanner.mjs:77-83 | the inner loop adds the non-empty trimmed lines of one file to the set; the count never falls and the set stays no larger than it |
| BloomLoader.LoadBloomFilter | scanner/scanner.mjs:63-90 | a missing directory gives the empty set; otherwise the set is `BloomSet` of the files, no larger than the count |
| BloomScanner.ScanFile | scanner/scanner.mjs:124-175 | the first tier that applies decides: hash error, primary hit (the hash in the set and in the signatures, with that entry's values), secondary set, YARA, else clean. Each tier holds exactly when every earlier one failed |
| BloomScanner.YaraOnlyAfterSetsMiss | scanner/scanner.mjs:146-161 | with a hash error or a set hit, the verdict does not depend on YARA |
| BloomScanner.LoadedHashIsPrimaryHit | scanner/scanner.mjs:38-45 | with data as `loadCsvToBloom` builds it, set membership alone gives a primary hit carrying the values of the hash's last CSV row |
| BloomScanner.TallyAddsUp | scanner/scanner.mjs:217-227 | the three counters sum to `total_matches = matched_files.length`, at most the number of files |
| BloomScanner.TallyMembers | scanner/scanner.mjs:217-220 | `matched_files` holds exactly the matched results |
| BloomScanner.ScanAllAppend | scanner/scanner.mjs:215-216 | scanning two lists of files one after the other gives the verdicts of scanning their concatenation, because an `.mjs` scan changes nothing |
| BloomScanner.FolderReport | scanner/scanner.mjs:194-231 | models `scanFolder`'s outcome: the enumeration error, the error object for an empty tree, or the report with the count, the tally and `total_matches`. `BloomScanner.TallyAddsUp` and `BloomScanner.TallyMembers` state what the report holds |
| BloomScanner.ScanFolder | scanner/scanner.mjs:194-231 | the loop gives `FolderReport`: enumeration errors propagate and an empty tree prints the error object. Otherwise the report holds the file count, the tally of all verdicts and `total_matches` |
| BloomScanner.CheckOptions | scanner/scanner.mjs:248-250 | the scan proceeds exactly when a database and a target are given; a missing database is reported first |
| BloomScanner.CommandLine | scanner/scanner.mjs:275-297 | models the command line of the `.mjs` scanner: the flags of `Args.Parse` with the loop's defaults for the hash directory and the rules. `BloomScanner.NoArgumentsNeedDb` and `BloomScanner.DbAndFileRoundTrip` state its properties |
| BloomScanner.ScanInput | scanner/scanner.mjs:246-269 | rejected exactly when `CheckOptions` fails, with its message and the cache untouched. Otherwise a cached copy of the CSV data is kept, and an uncached call caches the data `LoadSpec` gives for the lines. A file target gets `ScanFile` over the loaded sets and the chosen rules, and a folder target gets `FolderReport` |
| BloomScanner.NoArgumentsNeedDb | scanner/scanner.mjs:248-275 | run without arguments, the scanner stops with the `--db` message |
| BloomScanner.DbAndFileRoundTrip | scanner/scanner.mjs:272-299 | `--db d --file f` reaches `scanInput` with the stock hash directory and rules, and passes the checks |
| FeedUpdater.StripStart | static/update_database.py:16 | the result is a suffix not starting with Python whitespace, and every character dropped is whitespace |
| FeedUpdater.StripEnd | static/update_database.py:16 | the result is a prefix not ending with Python whitespace, and every character dropped is whitespace |
| FeedUpdater.Strip | static/update_database.py:16 | `strip()` neither starts nor ends with whitespace |
| FeedUpdater.StripDropsOnlySpace | static/update_database.py:16 | `strip()` is a contiguous part of its input, and every character before and after that part is Python whitespace |
| FeedUpdater.FeedHashes | static/update_database.py:16 | there is at most one entry per line |
| FeedUpdater.FeedHashesMembers | static/update_database.py:16 | the entries are exactly the stripped lines that do not start with `#` and are not blank |
| FeedUpdater.IsMd5 | static/update_database.py:44 | models the validity test: 32 characters, each in `0123456789abcdefABCDEF`. `FeedUpdater.ValidSetMembers` uses it to state which entries are accepted |
| FeedUpdater.ValidSetMembers | static/update_database.py:44-46 | the accepted hashes are exactly the entries of 32 characters over `[0-9a-fA-F]` |
| FeedUpdater.Merge | static/update_database.py:43-61 | models the loop over the feed: invalid and stored hashes are skipped, and a new one is inserted with the label and the clock and is counted. `FeedUpdater.MergeKeeps`, `FeedUpdater.MergeCount`, `FeedUpdater.MergeIdempotent` and `FeedUpdater.MergeTwice` state its properties |
| FeedUpdater.MergeKeeps | static/update_database.py:49-61 | stored rows are never modified, the new keys are exactly the valid feed hashes, and every new row has signature `MalwareBazaar_Recent` |
| FeedUpdater.MergeCount | static/update_database.py:43-61 | `new_hashes_count` is the number of distinct valid hashes absent beforehand; a duplicate in the feed is counted once |
| FeedUpdater.MergeIdempotent | static/update_database.py:49-61 | a feed whose valid hashes are all stored adds nothing |
| FeedUpdater.MergeTwice | static/update_database.py:43-61 | running the same feed again adds 0 rows |
| FeedUpdater.UpdateDatabase | static/update_database.py:8-77 | an unreadable feed exits with status 1 and an empty one exits with status 0, both without touching the database. Otherwise the table exists and the rows and count are those of the merge |

## Left out

- Console output, the desktop notifications (`showThreatNotification` and the
  others), `formatMem`, the printed timings and memory figures: output only, nothing is
  decided by them.
- `match_percentage` in both `scanFolder`s: floating-point division. Only the
  integer counters are modelled.
- The real `fs`, `sqlite3`, `csv-parser`, `readline`, `crypto` and `spawnSync`
  are not modelled. They are foreign calls, replaced by the maps and oracles
  described above.
- Promises and `await` are not modelled: every call runs to completion in
  program order. Concurrent scans sharing the global caches are not modelled.
- `printDatabaseContents`, the sample query and the `COUNT(*)` log lines of
  `loadCsvToBloom` in the `.cjs` scanner: they only print.
- The database open, query and transaction failures (`SQLITE_NOTADB`, a
  rejected `checkHash`, Python's `sqlite3.Error` handlers): SQLite is not
  modelled. The feed updater's `IntegrityError` branch cannot happen after the
  `SELECT` in a single process. `Store.Database.Insert` still reports it.
- `CsvImport.Connector.LoadCsvToBloom` takes the CSV text `content` apart
  from the table `db`, although in the source both are the one file at
  `dbPath`. The source can reach its `.csv` seeding branch only with an empty
  file, or SQLite refuses the file. The model lets a real CSV text seed the
  table.
- Stream errors of `getDirectoryNameForHash` and of the `readline` interface,
  and a `readdirSync` that throws inside `loadBloomFilter`: stream errors are
  not modelled.
- `Classifier.FamilyName`: the catalogue is given as parsed rows. `csv-parser`'s
  quoting rules are not modelled.
- `info.json` entries are taken to have string names, so `find` by a `null`
  directory never matches. An entry whose `name` is `null` is not modelled.
- `global.scanStatus` is taken as provided by the desktop host, which is not
  part of this model. On the command line it is undefined, and
  `getAllFiles` throws at `scanner/scanner.cjs:459` when it assigns
  `filesToScan`. That assignment and its `lenmgth` typo, which always stores
  `undefined`, are not modelled.
- `scanner/scanner.cjs:568-573`: the whitelist option is only mentioned in a
  log line. The whitelist used is always the scanner's own `whitelist.txt`.
- `Text.IsSpace`, `FeedUpdater.IsPySpace`: only ASCII whitespace. The Unicode
  spaces that JavaScript `trim` and Python `strip` also remove are not modelled.
- `Text.Lower`: only ASCII letters are lower-cased. Digests are hex, and CSV
  cells are taken to be ASCII.
- `Text.IndexOf`: its contract states presence and position. That the position
  is the first one is the separate lemma `Text.IndexOfIsFirst`.
- `Files.JoinPath` handles a `.` or empty directory and a trailing `/`. The
  rest of `path.join`'s normalisation is not modelled: a `./` prefix, `..`
  segments and repeated `/` inside the directory.
- `Classifier.QuarantineDir` is the relative path `data/quarantine`. The
  source joins `__dirname` with `../data/quarantine`. The directory of the
  script is not modelled.
- `Ledger.LedgerFile` has no case for JSON that parses to something other
  than a list, such as `{}`, `null` or a number. For such a file
  `quarantineList.push` at `scanner/scanner.cjs:274` throws after the file has
  already been moved, so `scanFile` rejects with the file in quarantine and no
  record. The model's ledger is missing, blank, unparseable or a list.
- `Classifier.CheckHash`: when both the bare and the quoted key are stored,
  SQLite may return either row. The model takes the bare one.
- `BloomLoader.AcceptLine`: the `signatures` object of the `.mjs` loader is a
  plain JavaScript object. Keys such as `__proto__` are not special in the
  model's map.
- Restore and purge of quarantined files, watch and schedule triggers, and
  cancellation do not appear in these files and are not modelled.
- The Electron shell (`electron.cjs`, `preload.js`), `scanner/run_scan.js`,
  `scanner/notifications.cjs`, `scanner/processUtils.cjs` and
  `tailwind.config.ts` are not part of this model.

## Findings

| source | as written | input that shows it | evidently intended | confidence | as-written member | corrected member |
|---|---|---|---|---|---|---|
| scanner/scanner.cjs:600 | `"Yara status" + global.settings.yara` reads a property of `global.settings` without `?.` | `node scanner.cjs --file x`: the command-line entry never sets `global.settings`, so `scanInput` throws a `TypeError` after the scan, which has already quarantined, logged or whitelisted, and the process exits with status 1 | `global.settings?.yara`, as `runYaraScan` reads it at `scanner/scanner.cjs:214` | medium, not executed | Cli.YaraStatusLineThrowsWithoutSettings | Cli.YaraStatusLineSafe |

The same undefined `global.settings` also means that, on the command line,
`runYaraScan` in the `.cjs` scanner always returns `null`. The YARA tier never
fires there, and with a database every total miss is learned as clean.
`Classifier.YaraEnabled` models that guard.

=== FILE: args.dfy ===
/** The command-line loop both scanners share: each known flag takes the
    next argument as its value (undefined past the end), anything else is
    rejected with "Unknown argument: ...". */
module Args {
  import opened Base

  /** The flags seen so far and their values; `None` is JavaScript `undefined`. */
  type Flags = map<string, Option<string>>

  /** The flag loop over the arguments not yet read. */
  function Parse(args: seq<string>, known: set<string>, acc: Flags): Result<Flags>
    decreases |args|
  {
    if |args| == 0 then Success(acc)
    else if args[0] in known then
      if |args| == 1 then Success(acc[args[0] := None])
      else Parse(args[2..], known, acc[args[0] := Some(args[1])])
    else Failure("Unknown argument: " + args[0])
  }

  /** The unread arguments after index `i`, which may run past the end. */
  function Rest(args: seq<string>, i: nat): seq<string> {
    if i <= |args| then args[i..] else []
  }

  /** `for (let i = 0; i < args.length; i++) switch (args[i]) { case f: v = args[++i] ... }`. */
  method ParseArgs(args: seq<string>, known: set<string>) returns (r: Result<Flags>)
    ensures r == Parse(args, known, map[])
  {
    var acc: Flags := map[];
    var i: nat := 0;
    while i < |args|
      invariant Parse(Rest(args, i), known, acc) == Parse(args, known, map[])
      decreases |args| - i
    {
      assert Rest(args, i)[0] == args[i];
      if args[i] in known {
        if i + 1 < |args| {
          assert Rest(args, i)[2..] == Rest(args, i + 2);
          acc := acc[args[i] := Some(args[i + 1])];
        } else {
          acc := acc[args[i] := None];
        }
        i := i + 2;
      } else {
        return Failure("Unknown argument: " + args[i]);
      }
    }
    return Success(acc);
  }

  /** Every flag in a parsed result is a known one. */
  lemma {:induction false} ParseKnownOnly(args: seq<string>, known: set<string>, acc: Flags)
    requires Parse(args, known, acc).Success?
    ensures Parse(args, known, acc).value.Keys <= acc.Keys + known
    decreases |args|
  {
    if |args| > 1 && args[0] in known {
      ParseKnownOnly(args[2..], known, acc[args[0] := Some(args[1])]);
    }
  }

  /** A rejected command line names an argument that is not a flag. */
  lemma {:induction false} ParseFailureNamesUnknown(args: seq<string>, known: set<string>, acc: Flags)
    requires Parse(args, known, acc).Failure?
    ensures exists j :: 0 <= j < |args| && args[j] !in known &&
                        Parse(args, known, acc).error == "Unknown argument: " + args[j]
    decreases |args|
  {
    if args[0] in known {
      var tail := args[2..];
      ParseFailureNamesUnknown(tail, known, acc[args[0] := Some(args[1])]);
      var j :| 0 <= j < |tail| && tail[j] !in known &&
               Parse(tail, known, acc[args[0] := Some(args[1])]).error == "Unknown argument: " + tail[j];
      assert args[j + 2] == tail[j];
    }
  }

  /** Flag/value pairs laid out as a command line. */
  function Render(pairs: seq<(string, string)>): seq<string> {
    if |pairs| == 0 then [] else [pairs[0].0, pairs[0].1] + Render(pairs[1..])
  }

  /** The pairs applied in order: a repeated flag keeps its last value. */
  function Apply(acc: Flags, pairs: seq<(string, string)>): Flags
    decreases |pairs|
  {
    if |pairs| == 0 then acc else Apply(acc[pairs[0].0 := Some(pairs[0].1)], pairs[1..])
  }

  /** Parsing a rendered command line gives back its pairs, last one winning. */
  lemma {:induction false} ParseRender(pairs: seq<(string, string)>, known: set<string>, acc: Flags)
    requires forall k :: 0 <= k < |pairs| ==> pairs[k].0 in known
    ensures Parse(Render(pairs), known, acc) == Success(Apply(acc, pairs))
    decreases |pairs|
  {
    if |pairs| > 0 {
      var args := Render(pairs);
      assert args[0] == pairs[0].0 && args[1] == pairs[0].1;
      assert args[2..] == Render(pairs[1..]);
      ParseRender(pairs[1..], known, acc[pairs[0].0 := Some(pairs[0].1)]);
    }
  }

  /** The value of a flag, or the default the loop starts from. */
  function Get(flags: Flags, flag: string, default: Option<string>): Option<string> {
    if flag in flags then flags[flag] else default
  }
}

=== FILE: base.dfy ===
/** Small wrappers shared by every module: an optional value and a result
    that carries an error message instead of a thrown exception. */
module Base {

  /** A value that may be absent: JavaScript's `undefined`/`null`, Python's `None`. */
  datatype Option<T> = None | Some(value: T) {
    function GetOr(default: T): T {
      match this
      case Some(v) => v
      case None => default
    }
  }

  /** The outcome of an operation whose source throws (or exits) on error. */
  datatype Result<T> = Success(value: T) | Failure(error: string)

  /** JavaScript truthiness of a value that is either a string or missing:
      `undefined`, `null` and `""` are falsy. */
  predicate Truthy(o: Option<string>) {
    o.Some? && o.value != ""
  }
}

=== FILE: bloom_loader.dfy ===
/** The two hash loaders of `scanner/scanner.mjs`: `loadCsvToBloom`, which
    reads a CSV export line by line into a set of MD5 hashes and a map of
    their signatures (cached for the process), and `loadBloomFilter`, which
    collects the non-blank lines of every file in a hash-list directory. */
module BloomLoader {
  import opened Base
  import opened Text
  import opened CsvImport

  /** `{ first_seen, signature }` of one hash. */
  datatype SigInfo = SigInfo(firstSeen: string, signature: string)

  /** `{ bloomFilters: { md5: md5Set }, signatures }`. */
  datatype BloomData = BloomData(md5: set<string>, signatures: map<string, SigInfo>)

  /** `row[i] || "N/A"`: the raw cell, or "N/A" when it is missing or empty
      (`row[-1]` is undefined). */
  function CellOrNA(row: seq<string>, i: int): (c: string)
    ensures c != ""
    ensures 0 <= i < |row| && row[i] != "" ==> c == row[i]
    ensures !(0 <= i < |row| && row[i] != "") ==> c == "N/A"
  {
    if 0 <= i < |row| && row[i] != "" then row[i] else "N/A"
  }

  /** What one data line adds: nothing for a blank line, a missing `md5_hash`
      column or an empty hash cell; otherwise the trimmed, unquoted,
      lower-cased hash with the two raw cells. */
  function AcceptLine(line: string, cols: Columns): Option<(string, SigInfo)> {
    if Trim(line) == "" then None
    else
      var row := Split(line, ',');
      if cols.md5 != -1 && 0 <= cols.md5 < |row| && row[cols.md5] != "" then
        Some((Lower(Unquote(Trim(row[cols.md5]), Quotes)),
              SigInfo(CellOrNA(row, cols.firstSeen), CellOrNA(row, cols.signature))))
      else None
  }

  /** The handler's accumulated `md5Set`, `signatures` and `hashCount`. */
  datatype Loaded = Loaded(md5: set<string>, signatures: map<string, SigInfo>, hashCount: nat) {
    /** The `{ bloomFilters, signatures }` object built from it. */
    function Data(): BloomData {
      BloomData(md5, signatures)
    }
  }

  function LoadStep(acc: Loaded, line: string, cols: Columns): Loaded {
    Add(acc, AcceptLine(line, cols))
  }

  /** `md5Set.add`, `signatures[hashVal] = ...` and `hashCount++` for an
      accepted line. */
  function Add(acc: Loaded, a: Option<(string, SigInfo)>): Loaded {
    if a.Some? then
      Loaded(acc.md5 + {a.value.0}, acc.signatures[a.value.0 := a.value.1], acc.hashCount + 1)
    else acc
  }

  /** The data lines handed to the handler in order. */
  function LoadLines(lines: seq<string>, cols: Columns): Loaded {
    if |lines| == 0 then Loaded({}, map[], 0)
    else LoadStep(LoadLines(lines[..|lines| - 1], cols), lines[|lines| - 1], cols)
  }

  /** A whole read: the first line is the header, the rest are data. */
  function LoadSpec(lines: seq<string>): Loaded {
    if |lines| == 0 then Loaded({}, map[], 0)
    else LoadLines(lines[1..], FindColumns(lines[0]))
  }

  /** Every hash in the set has a signatures entry and vice versa. */
  lemma {:induction false} SignaturesCoverSet(lines: seq<string>, cols: Columns)
    ensures LoadLines(lines, cols).signatures.Keys == LoadLines(lines, cols).md5
  {
    if |lines| > 0 {
      SignaturesCoverSet(lines[..|lines| - 1], cols);
    }
  }

  /** The info of the last accepted line whose hash is `k`. */
  function LastInfo(lines: seq<string>, cols: Columns, k: string): Option<SigInfo> {
    if |lines| == 0 then None
    else
      var a := AcceptLine(lines[|lines| - 1], cols);
      if a.Some? && a.value.0 == k then Some(a.value.1)
      else LastInfo(lines[..|lines| - 1], cols, k)
  }

  /** A repeated hash is one set element, and its signatures entry holds
      the values of its LAST row. */
  lemma {:induction false} LastRowWins(lines: seq<string>, cols: Columns, k: string)
    ensures k in LoadLines(lines, cols).md5 <==> LastInfo(lines, cols, k).Some?
    ensures k in LoadLines(lines, cols).signatures ==>
      LastInfo(lines, cols, k) == Some(LoadLines(lines, cols).signatures[k])
  {
    if |lines| > 0 {
      LastRowWins(lines[..|lines| - 1], cols, k);
      SignaturesCoverSet(lines[..|lines| - 1], cols);
    }
  }

  /** Data line `l` is accepted with hash `k`. */
  predicate Adds(l: string, cols: Columns, k: string) {
    AcceptLine(l, cols).Some? && AcceptLine(l, cols).value.0 == k
  }

  /** The set holds exactly the keys of the accepted lines. */
  lemma LoadedMembers(lines: seq<string>, cols: Columns, k: string)
    ensures k in LoadLines(lines, cols).md5 <==> exists i :: 0 <= i < |lines| && Adds(lines[i], cols, k)
  {
    if k in LoadLines(lines, cols).md5 {
      var i := LoadedWitness(lines, cols, k);
    }
    if exists i :: 0 <= i < |lines| && Adds(lines[i], cols, k) {
      var i :| 0 <= i < |lines| && Adds(lines[i], cols, k);
      LoadedHas(lines, cols, i, k);
    }
  }

  lemma {:induction false} LoadedWitness(lines: seq<string>, cols: Columns, k: string) returns (i: nat)
    requires k in LoadLines(lines, cols).md5
    ensures i < |lines| && Adds(lines[i], cols, k)
  {
    var init := lines[..|lines| - 1];
    if k in LoadLines(init, cols).md5 {
      i := LoadedWitness(init, cols, k);
      assert lines[i] == init[i];
    } else {
      i := |lines| - 1;
    }
  }

  lemma {:induction false} LoadedHas(lines: seq<string>, cols: Columns, i: nat, k: string)
    requires i < |lines| && Adds(lines[i], cols, k)
    ensures k in LoadLines(lines, cols).md5
  {
    if i < |lines| - 1 {
      var init := lines[..|lines| - 1];
      assert init[i] == lines[i];
      LoadedHas(init, cols, i, k);
    }
  }

  lemma LoadLinesSnoc(lines: seq<string>, cols: Columns, l: string)
    ensures LoadLines(lines + [l], cols) == LoadStep(LoadLines(lines, cols), l, cols)
  {
    assert (lines + [l])[..|lines|] == lines;
  }

  /** `LoadLinesSnoc` for the prefixes of one list. */
  lemma LoadLinesPrefix(lines: seq<string>, i: nat, cols: Columns)
    requires i < |lines|
    ensures LoadLines(lines[..i + 1], cols) == LoadStep(LoadLines(lines[..i], cols), lines[i], cols)
  {
    assert lines[..i + 1][..i] == lines[..i];
  }

  /** `hashCount` counts every accepted row, duplicates included, so it
      bounds the set from above and the data lines bound it. */
  lemma {:induction false} HashCountBounds(lines: seq<string>, cols: Columns)
    ensures |LoadLines(lines, cols).md5| <= LoadLines(lines, cols).hashCount <= |lines|
  {
    if |lines| > 0 {
      var init := lines[..|lines| - 1];
      HashCountBounds(init, cols);
      var acc := LoadLines(init, cols);
      var a := AcceptLine(lines[|lines| - 1], cols);
      if a.Some? {
        assert |acc.md5 + {a.value.0}| <= |acc.md5| + 1;
      }
    }
  }

  /** The number of data lines the handler accepts, counted from the front. */
  function AcceptedRows(lines: seq<string>, cols: Columns): nat {
    if |lines| == 0 then 0
    else (if AcceptLine(lines[0], cols).Some? then 1 else 0) + AcceptedRows(lines[1..], cols)
  }

  lemma {:induction false} AcceptedRowsSnoc(lines: seq<string>, l: string, cols: Columns)
    ensures AcceptedRows(lines + [l], cols) == AcceptedRows(lines, cols) + (if AcceptLine(l, cols).Some? then 1 else 0)
  {
    if |lines| > 0 {
      assert (lines + [l])[1..] == lines[1..] + [l];
      AcceptedRowsSnoc(lines[1..], l, cols);
    } else {
      assert ([] + [l])[1..] == [];
    }
  }

  /** `hashCount` counts every accepted row, repeated hashes included. */
  lemma {:induction false} HashCountIsAccepted(lines: seq<string>, cols: Columns)
    ensures LoadLines(lines, cols).hashCount == AcceptedRows(lines, cols)
  {
    if |lines| > 0 {
      var init := lines[..|lines| - 1];
      HashCountIsAccepted(init, cols);
      AcceptedRowsSnoc(init, lines[|lines| - 1], cols);
      assert init + [lines[|lines| - 1]] == lines;
    }
  }

  /** Without an `md5_hash` column in the header nothing is loaded. */
  lemma {:induction false} NoHashColumnLoadsNothing(lines: seq<string>, cols: Columns)
    requires cols.md5 == -1
    ensures LoadLines(lines, cols) == Loaded({}, map[], 0)
  {
    if |lines| > 0 {
      NoHashColumnLoadsNothing(lines[..|lines| - 1], cols);
    }
  }

  lemma MissingHashColumnLoadsNothing(lines: seq<string>)
    requires |lines| > 0 && "md5_hash" !in HeaderCells(lines[0])
    ensures LoadSpec(lines) == Loaded({}, map[], 0)
  {
    NoHashColumnLoadsNothing(lines[1..], FindColumns(lines[0]));
  }

  /** The `line` handler's closure: the header flag and indices, the set,
      the signatures object and the counter. */
  class LineHandler {
    var headerProcessed: bool
    var cols: Columns
    var md5Set: set<string>
    var signatures: map<string, SigInfo>
    var hashCount: nat

    function Acc(): Loaded
      reads this
    {
      Loaded(md5Set, signatures, hashCount)
    }

    constructor ()
      ensures !headerProcessed && Acc() == Loaded({}, map[], 0)
    {
      headerProcessed := false;
      cols := Columns(-1, -1, -1);
      md5Set := {};
      signatures := map[];
      hashCount := 0;
    }

    /** `rl.on("line", ...)`: the first line fixes the column indices, every
        later line goes through `LoadStep`. */
    method OnLine(line: string)
      modifies this
      ensures headerProcessed
      ensures !old(headerProcessed) ==> cols == FindColumns(line) && Acc() == old(Acc())
      ensures old(headerProcessed) ==> cols == old(cols) && Acc() == LoadStep(old(Acc()), line, cols)
    {
      if !headerProcessed {
        OnHeader(FindColumns(line));
      } else {
        OnDataLine(line);
      }
    }

    /** The header branch: the column indices found in the header's cells. */
    method OnHeader(found: Columns)
      modifies this
      ensures headerProcessed && cols == found && Acc() == old(Acc())
    {
      cols := found;
      headerProcessed := true;
    }

    /** The `else` branch of the handler, for a line after the header: the
        line's verdict from `AcceptLine`, recorded when it yields a hash. */
    method OnDataLine(line: string)
      modifies this
      ensures headerProcessed == old(headerProcessed) && cols == old(cols)
      ensures Acc() == LoadStep(old(Acc()), line, cols)
    {
      var accepted := AcceptLine(line, cols);
      if accepted.Some? {
        Record(accepted.value.0, accepted.value.1);
      }
    }

    /** `md5Set.add(hashVal)`, `signatures[hashVal] = info`, `hashCount++`. */
    method Record(hashVal: string, info: SigInfo)
      modifies this
      ensures headerProcessed == old(headerProcessed) && cols == old(cols)
      ensures Acc() == Add(old(Acc()), Some((hashVal, info)))
    {
      md5Set := md5Set + {hashVal};
      signatures := signatures[hashVal := info];
      hashCount := hashCount + 1;
    }

    /** The `readline` interface delivering `lines` to the handler, in order. */
    method ReadLines(lines: seq<string>)
      requires !headerProcessed && Acc() == Loaded({}, map[], 0)
      modifies this
      ensures Acc() == LoadSpec(lines)
    {
      if |lines| == 0 {
        return;
      }
      OnLine(lines[0]);
      ReadData(lines[1..]);
    }

    /** The lines after the header, in order. */
    method ReadData(rest: seq<string>)
      requires headerProcessed && Acc() == Loaded({}, map[], 0)
      modifies this
      ensures cols == old(cols) && Acc() == LoadLines(rest, cols)
    {
      for i := 0 to |rest|
        invariant headerProcessed && cols == old(cols)
        invariant Acc() == LoadLines(rest[..i], cols)
      {
        ReadNext(rest, i);
      }
      assert rest[..|rest|] == rest;
    }

    /** Data line `i`, after the lines before it. */
    method ReadNext(rest: seq<string>, i: nat)
      requires i < |rest|
      requires headerProcessed && Acc() == LoadLines(rest[..i], cols)
      modifies this
      ensures headerProcessed && cols == old(cols) && Acc() == LoadLines(rest[..i + 1], cols)
    {
      LoadLinesPrefix(rest, i, cols);
      OnDataLine(rest[i]);
    }
  }

  /** The uncached path of `loadCsvToBloom`: a fresh handler fed every
      line, and the object built from its set and signatures. */
  method ReadCsv(lines: seq<string>) returns (data: BloomData)
    ensures data == LoadSpec(lines).Data()
  {
    var h := new LineHandler();
    h.ReadLines(lines);
    data := h.Acc().Data();
  }

  /** `global.preloadedCsvData`. */
  class CsvCache {
    var preloaded: Option<BloomData>

    constructor ()
      ensures preloaded == None
    {
      preloaded := None;
    }

    /** `loadCsvToBloom(csvFile)`, with the file's `readline` lines: the
        cached data when there is some, without reading; otherwise the
        lines fed to a fresh handler, and the result cached. */
    method LoadCsvToBloom(lines: seq<string>) returns (data: BloomData)
      modifies this
      ensures old(preloaded).Some? ==> data == old(preloaded).value && preloaded == old(preloaded)
      ensures old(preloaded).None? ==> data == LoadSpec(lines).Data() && preloaded == Some(data)
    {
      if preloaded.Some? {
        return preloaded.value;
      }
      data := ReadCsv(lines);
      preloaded := Some(data);
    }
  }

  /** `loadBloomFilter(hashDir)`'s result: the non-blank trimmed lines of
      every readable file, split at `\r?\n`. `files` are the directory's
      entries in `readdir` order, each with its text or `None` when
      `readFileSync` throws. */
  function BloomSet(files: seq<Option<string>>): set<string> {
    if |files| == 0 then {}
    else
      var f := files[|files| - 1];
      BloomSet(files[..|files| - 1]) + (if f.Some? then TrimmedSet(SplitCrLf(f.value)) else {})
  }

  /** File entry `f` is readable and has `x` on a line of its own. */
  predicate Lists(f: Option<string>, x: string) {
    f.Some? && x in TrimmedSet(SplitCrLf(f.value))
  }

  /** A hash is loaded exactly when some readable file has it on a line of
      its own; an unreadable file contributes nothing. */
  lemma BloomSetMembers(files: seq<Option<string>>, x: string)
    ensures x in BloomSet(files) <==> exists i :: 0 <= i < |files| && Lists(files[i], x)
  {
    if x in BloomSet(files) {
      var i := BloomSetWitness(files, x);
    }
    if exists i :: 0 <= i < |files| && Lists(files[i], x) {
      var i :| 0 <= i < |files| && Lists(files[i], x);
      BloomSetHas(files, i, x);
    }
  }

  lemma {:induction false} BloomSetWitness(files: seq<Option<string>>, x: string) returns (i: nat)
    requires x in BloomSet(files)
    ensures i < |files| && Lists(files[i], x)
  {
    var init := files[..|files| - 1];
    if x in BloomSet(init) {
      i := BloomSetWitness(init, x);
      assert files[i] == init[i];
    } else {
      i := |files| - 1;
    }
  }

  lemma {:induction false} BloomSetHas(files: seq<Option<string>>, i: nat, x: string)
    requires i < |files| && Lists(files[i], x)
    ensures x in BloomSet(files)
  {
    if i < |files| - 1 {
      var init := files[..|files| - 1];
      assert init[i] == files[i];
      BloomSetHas(init, i, x);
    }
  }

  const DefaultBloomDir := "virusshare_hashes"

  /** The inner loop of `loadBloomFilter` over one file's lines. */
  method AddLines(md5Set: set<string>, hashCount: nat, lines: seq<string>)
    returns (md5Set': set<string>, hashCount': nat)
    requires |md5Set| <= hashCount
    ensures md5Set' == md5Set + TrimmedSet(lines)
    ensures |md5Set'| <= hashCount' && hashCount <= hashCount'
  {
    md5Set', hashCount' := md5Set, hashCount;
    for j := 0 to |lines|
      invariant md5Set' == md5Set + TrimmedSet(lines[..j])
      invariant |md5Set'| <= hashCount' && hashCount <= hashCount'
    {
      assert lines[..j + 1][..j] == lines[..j];
      var hashStr := Trim(lines[j]);
      if hashStr != "" {
        assert |md5Set' + {hashStr}| <= |md5Set'| + 1;
        md5Set' := md5Set' + {hashStr};
        hashCount' := hashCount' + 1;
      }
    }
    assert lines[..|lines|] == lines;
  }

  /** `loadBloomFilter(hashDir)`: `dir` is `None` when the directory does not
      exist, which gives the empty set. */
  method LoadBloomFilter(dir: Option<seq<Option<string>>>) returns (md5Set: set<string>, hashCount: nat)
    ensures dir.None? ==> md5Set == {} && hashCount == 0
    ensures dir.Some? ==> md5Set == BloomSet(dir.value)
    ensures |md5Set| <= hashCount
  {
    md5Set := {};
    hashCount := 0;
    if dir.None? {
      return;
    }
    var files := dir.value;
    for i := 0 to |files|
      invariant md5Set == BloomSet(files[..i])
      invariant |md5Set| <= hashCount
    {
      assert files[..i + 1][..i] == files[..i];
      if files[i].Some? {
        md5Set, hashCount := AddLines(md5Set, hashCount, SplitCrLf(files[i].value));
      }
    }
    assert files[..|files|] == files;
  }
}

=== FILE: bloom_scanner.dfy ===
/** The set-based scanner of `scanner/scanner.mjs`: `scanFile`'s three-tier
    check (the CSV hash set with its signatures, the secondary hash-list
    set, then YARA), `scanFolder`'s aggregation, and `scanInput` with its
    command line. Nothing here moves, logs or whitelists a file. */
module BloomScanner {
  import opened Base
  import opened Text
  import opened Files
  import opened Args
  import opened CsvImport
  import opened BloomLoader

  /** The `{ matched, result }` pairs `scanFile` returns. */
  datatype BloomResult =
    | HashError                                                         // { matched: false, result: "hash_error" }
    | PrimaryHit(hash: string, firstSeen: string, signature: string, file: Path)  // type "primary_bloom"
    | SecondaryHit(hash: string, file: Path)                            // type "secondary_bloom"
    | YaraHit(matches: string, file: Path)                              // type "yara"
    | Clean                                                             // { matched: false, result: null }
  {
    predicate Matched() {
      PrimaryHit? || SecondaryHit? || YaraHit?
    }
  }

  /** What a scan reads: the files on disk, the MD5 digest, the CSV data,
      the secondary set and what the YARA command reports for given rules
      and file. */
  datatype Sources = Sources(files: map<Path, Bytes>, md5: Bytes -> string, primary: BloomData,
                             secondary: set<string>, yara: (string, Path) -> SpawnResult)

  /** A primary hit needs the hash in the set AND a signatures entry. */
  predicate PrimaryHas(data: BloomData, h: string) {
    h in data.md5 && h in data.signatures
  }

  /** `scanFile(filePath, bloomDbs1, signatures, bloomFilter2, yaraRules)`:
      the first tier that applies, in the order hash error, primary set,
      secondary set, YARA, none. */
  function ScanFile(src: Sources, rules: string, path: Path): (r: BloomResult)
    ensures r.HashError? <==> ComputeHash(src.files, src.md5, path).None?
    ensures r.PrimaryHit? <==>
      ComputeHash(src.files, src.md5, path).Some? && PrimaryHas(src.primary, ComputeHash(src.files, src.md5, path).value)
    ensures r.SecondaryHit? <==>
      ComputeHash(src.files, src.md5, path).Some? && !PrimaryHas(src.primary, ComputeHash(src.files, src.md5, path).value) &&
      ComputeHash(src.files, src.md5, path).value in src.secondary
    ensures r.YaraHit? <==>
      ComputeHash(src.files, src.md5, path).Some? && !PrimaryHas(src.primary, ComputeHash(src.files, src.md5, path).value) &&
      ComputeHash(src.files, src.md5, path).value !in src.secondary && RunYara(true, src.yara(rules, path)).Some?
    ensures r.PrimaryHit? ==>
      r.hash == ComputeHash(src.files, src.md5, path).value && PrimaryHas(src.primary, r.hash) &&
      SigInfo(r.firstSeen, r.signature) == src.primary.signatures[r.hash]
    ensures r.Matched() ==> r.file == path
  {
    var hashes := ComputeHash(src.files, src.md5, path);
    if hashes.None? then HashError
    else
      var h := hashes.value;
      if PrimaryHas(src.primary, h) then
        PrimaryHit(h, src.primary.signatures[h].firstSeen, src.primary.signatures[h].signature, path)
      else if h in src.secondary then SecondaryHit(h, path)
      else
        var y := RunYara(true, src.yara(rules, path));
        if y.Some? then YaraHit(y.value, path) else Clean
  }

  /** YARA is consulted only when both sets miss: with a hash hit, the
      verdict does not depend on what the YARA command would report. */
  lemma YaraOnlyAfterSetsMiss(src: Sources, yara': (string, Path) -> SpawnResult, rules: string, path: Path)
    requires var h := ComputeHash(src.files, src.md5, path);
      h.None? || PrimaryHas(src.primary, h.value) || h.value in src.secondary
    ensures ScanFile(src, rules, path) == ScanFile(src.(yara := yara'), rules, path)
  {
  }

  /** With data as `loadCsvToBloom` builds it, set membership alone makes a
      primary hit, and it carries the values of the hash's last CSV row. */
  lemma LoadedHashIsPrimaryHit(src: Sources, lines: seq<string>, rules: string, path: Path)
    requires |lines| > 0
    requires src.primary == BloomData(LoadSpec(lines).md5, LoadSpec(lines).signatures)
    requires path in src.files && Lower(src.md5(src.files[path])) in src.primary.md5
    ensures var r := ScanFile(src, rules, path);
      && r.PrimaryHit?
      && LastInfo(lines[1..], FindColumns(lines[0]), r.hash) == Some(SigInfo(r.firstSeen, r.signature))
  {
    var cols := FindColumns(lines[0]);
    var h := Lower(src.md5(src.files[path]));
    SignaturesCoverSet(lines[1..], cols);
    LastRowWins(lines[1..], cols, h);
  }

  /** `scan_summary.matches` and `matched_files`. */
  datatype Tally = Tally(primaryBloom: nat, secondaryBloom: nat, yara: nat, matchedFiles: seq<BloomResult>)

  /** `matches[result.type] += 1; matched_files.push(result)` for a match. */
  function Count(t: Tally, r: BloomResult): Tally {
    if r.PrimaryHit? then t.(primaryBloom := t.primaryBloom + 1, matchedFiles := t.matchedFiles + [r])
    else if r.SecondaryHit? then t.(secondaryBloom := t.secondaryBloom + 1, matchedFiles := t.matchedFiles + [r])
    else if r.YaraHit? then t.(yara := t.yara + 1, matchedFiles := t.matchedFiles + [r])
    else t
  }

  function TallyOf(rs: seq<BloomResult>): Tally {
    if |rs| == 0 then Tally(0, 0, 0, []) else Count(TallyOf(rs[..|rs| - 1]), rs[|rs| - 1])
  }

  /** The three counters sum to the number of matched files, which is at
      most the number of files scanned. */
  lemma {:induction false} TallyAddsUp(rs: seq<BloomResult>)
    ensures var t := TallyOf(rs);
      t.primaryBloom + t.secondaryBloom + t.yara == |t.matchedFiles| <= |rs|
  {
    if |rs| > 0 {
      TallyAddsUp(rs[..|rs| - 1]);
    }
  }

  /** `matched_files` holds exactly the matched results, in scan order. */
  lemma {:induction false} TallyMembers(rs: seq<BloomResult>, x: BloomResult)
    ensures x in TallyOf(rs).matchedFiles <==> x in rs && x.Matched()
  {
    if |rs| > 0 {
      var init := rs[..|rs| - 1];
      TallyMembers(init, x);
      assert rs == init + [rs[|rs| - 1]];
    }
  }

  /** The verdicts for a list of files; a scan changes nothing, so each is
      independent of the others. */
  function ScanAll(src: Sources, rules: string, ps: seq<Path>): seq<BloomResult> {
    seq(|ps|, i requires 0 <= i < |ps| => ScanFile(src, rules, ps[i]))
  }

  /** Scanning two lists of files one after the other gives the verdicts of
      each: no scan changes what a later one sees. */
  lemma ScanAllAppend(src: Sources, rules: string, ps: seq<Path>, qs: seq<Path>)
    ensures ScanAll(src, rules, ps + qs) == ScanAll(src, rules, ps) + ScanAll(src, rules, qs)
  {
  }

  /** The printed `results` object; `match_percentage` is not modelled. */
  datatype Report = Report(totalFiles: nat, tally: Tally, totalMatches: nat)

  /** What `scanFolder` does: an enumeration error propagates as an
      exception, an empty tree prints "No files found to scan.", otherwise
      the report is printed. It returns `undefined` in every case. */
  datatype FolderOutcome = Threw(error: string) | NothingToScan | Printed(report: Report)

  /** The outcome of `scanFolder` over the tree under `folder`. */
  function FolderReport(src: Sources, rules: string, folder: Path, tree: Listing): FolderOutcome {
    match AllFiles(folder, tree)
    case Failure(e) => Threw(e)
    case Success(ps) =>
      if |ps| == 0 then NothingToScan
      else
        var t := TallyOf(ScanAll(src, rules, ps));
        Printed(Report(|ps|, t, |t.matchedFiles|))
  }

  /** `scanFolder(folder, ...)`; `tree` is the directory tree under `folder`. */
  method ScanFolder(src: Sources, rules: string, folder: Path, tree: Listing) returns (out: FolderOutcome)
    ensures out == FolderReport(src, rules, folder, tree)
    ensures out.Threw? <==> AllFiles(folder, tree).Failure?
    ensures out.NothingToScan? <==> AllFiles(folder, tree) == Success([])
    ensures out.Printed? ==>
      var ps := AllFiles(folder, tree).value;
      && out.report.totalFiles == |ps| > 0
      && out.report.tally == TallyOf(ScanAll(src, rules, ps))
      && out.report.totalMatches == |out.report.tally.matchedFiles|
  {
    var all := GetAllFiles(folder, tree);
    if all.Failure? {
      return Threw(all.error);
    }
    var ps := all.value;
    if |ps| == 0 {
      return NothingToScan;
    }
    ghost var rs := ScanAll(src, rules, ps);
    var t := Tally(0, 0, 0, []);
    // The source's `count` only feeds the progress print, which is not modelled.
    for i := 0 to |ps|
      invariant t == TallyOf(rs[..i])
    {
      assert rs[..i + 1][..i] == rs[..i];
      var r := ScanFile(src, rules, ps[i]);
      if r.Matched() {  // `if (matched)`
        t := Count(t, r);
      }
    }
    assert rs[..|ps|] == rs;
    TallyAddsUp(rs);
    out := Printed(Report(|ps|, t, t.primaryBloom + t.secondaryBloom + t.yara));
  }

  /** The options object of this `scanInput`. */
  datatype Options = Options(dbPath: Option<string>, bloomDir: Option<string>, yaraPath: Option<string>,
                             filePath: Option<string>, folderPath: Option<string>)

  const DbRequired := "--db option is required"
  const TargetRequired := "Either filePath or folderPath option is required"
  const DefaultRules := "./packages/full/yara-rules-full.yar"

  /** The two checks at the top of `scanInput`, in their order. */
  function CheckOptions(o: Options): (r: Result<()>)
    ensures r.Success? <==> Truthy(o.dbPath) && (Truthy(o.filePath) || Truthy(o.folderPath))
    ensures !Truthy(o.dbPath) ==> r == Failure(DbRequired)
    ensures Truthy(o.dbPath) && !Truthy(o.filePath) && !Truthy(o.folderPath) ==> r == Failure(TargetRequired)
  {
    if !Truthy(o.dbPath) then Failure(DbRequired)
    else if !Truthy(o.filePath) && !Truthy(o.folderPath) then Failure(TargetRequired)
    else Success(())
  }

  /** `options.bloomDir || "virusshare_hashes"` and the YARA rules likewise. */
  function BloomDirOf(o: Options): string {
    if Truthy(o.bloomDir) then o.bloomDir.value else DefaultBloomDir
  }

  function RulesOf(o: Options): string {
    if Truthy(o.yaraPath) then o.yaraPath.value else DefaultRules
  }

  /** What `scanInput` resolves with: the file verdict, or `undefined` after
      a folder scan (whose report is printed). */
  datatype InputOutcome = Rejected(error: string) | FileResult(result: BloomResult) | FolderDone(outcome: FolderOutcome)

  /** `scanInput(options)`. `csvLines` are the `readline` lines of the file
      at `dbPath`; `dirs(d)` is the listing `loadBloomFilter` sees for the
      directory `d` (`None` when it does not exist). */
  method ScanInput(o: Options, cache: CsvCache, csvLines: seq<string>,
                   dirs: string -> Option<seq<Option<string>>>, files: map<Path, Bytes>,
                   md5: Bytes -> string, yara: (string, Path) -> SpawnResult, tree: Listing)
    returns (out: InputOutcome)
    modifies cache
    ensures out.Rejected? <==> CheckOptions(o).Failure?
    ensures out.Rejected? ==> out.error == CheckOptions(o).error && cache.preloaded == old(cache.preloaded)
    ensures !out.Rejected? ==> cache.preloaded.Some?
    ensures !out.Rejected? && old(cache.preloaded).Some? ==> cache.preloaded == old(cache.preloaded)
    ensures !out.Rejected? && old(cache.preloaded).None? ==> cache.preloaded == Some(LoadSpec(csvLines).Data())
    ensures out.FileResult? ==>
      var src := Sources(files, md5, cache.preloaded.value, BloomSet(dirs(BloomDirOf(o)).GetOr([])), yara);
      Truthy(o.filePath) && out.result == ScanFile(src, RulesOf(o), o.filePath.value)
    ensures out.FolderDone? ==>
      var src := Sources(files, md5, cache.preloaded.value, BloomSet(dirs(BloomDirOf(o)).GetOr([])), yara);
      !Truthy(o.filePath) && Truthy(o.folderPath) &&
      out.outcome == FolderReport(src, RulesOf(o), o.folderPath.value, tree)
  {
    var check := CheckOptions(o);
    if check.Failure? {
      return Rejected(check.error);
    }
    var primary := cache.LoadCsvToBloom(csvLines);
    var dir := dirs(BloomDirOf(o));
    var secondary, _ := LoadBloomFilter(dir);
    var src := Sources(files, md5, primary, secondary, yara);
    if Truthy(o.filePath) {
      out := FileResult(ScanFile(src, RulesOf(o), o.filePath.value));
    } else {
      var f := ScanFolder(src, RulesOf(o), o.folderPath.value, tree);
      out := FolderDone(f);
    }
  }

  const Flags: set<string> := {"--db", "--bloom-dir", "--yara", "--file", "--folder"}

  /** The command-line loop and its defaults. */
  function CommandLine(args: seq<string>): Result<Options> {
    match Parse(args, Flags, map[])
    case Success(f) =>
      Success(Options(Get(f, "--db", None), Get(f, "--bloom-dir", Some(DefaultBloomDir)),
                      Get(f, "--yara", Some(DefaultRules)), Get(f, "--file", None), Get(f, "--folder", None)))
    case Failure(e) => Failure(e)
  }

  /** Run without arguments, the scanner stops with the `--db` message. */
  lemma NoArgumentsNeedDb()
    ensures CommandLine([]).Success? && CheckOptions(CommandLine([]).value) == Failure(DbRequired)
  {
  }

  /** A database and a file given on the command line reach `scanInput`
      with the stock directory and rules. */
  lemma DbAndFileRoundTrip(db: string, file: string)
    requires db != "" && file != ""
    ensures var o := CommandLine(Render([("--db", db), ("--file", file)]));
      && o == Success(Options(Some(db), Some(DefaultBloomDir), Some(DefaultRules), Some(file), None))
      && CheckOptions(o.value).Success?
  {
    var pairs := [("--db", db), ("--file", file)];
    ParseRender(pairs, Flags, map[]);
    var m1: Args.Flags := map["--db" := Some(db)];
    assert Apply(map[], pairs) == Apply(m1, pairs[1..]);
    assert Apply(m1, pairs[1..]) == Apply(m1["--file" := Some(file)], pairs[2..]);
    assert pairs[2..] == [];
  }
}

=== FILE: classifier.dfy ===
/** The tiered classifier of `scanner/scanner.cjs` (`scanFile`): hash,
    whitelist, curated family catalogue, SQLite store, YARA, and learning
    the hash as clean, stated as one function from the disk before the
    call to the result and the disk after it. */
module Classifier {
  import opened Base
  import opened Text
  import opened Files
  import opened Store
  import opened Ledger

  /** The part of `global.settings` the scanner reads. */
  datatype Settings = Settings(yara: bool)

  /** One row of the family catalogue `data/hash.csv`. */
  datatype CatalogueRow = CatalogueRow(md5Hash: string, directoryName: string)

  /** `detailed_analysis` of an `info.json` entry; JSON values kept as text. */
  datatype Analysis = Analysis(cveScores: Option<string>, history: Option<string>, origin: Option<string>,
                               authorship: Option<string>, affectedNations: Option<string>,
                               detectionTechniques: Option<string>)

  /** One entry of the family metadata list `data/info.json`. */
  datatype InfoEntry = InfoEntry(name: string, description: Option<string>, analysis: Option<Analysis>)

  /** Everything the classifier consults but does not own. */
  datatype Env = Env(
    md5: Bytes -> string,                 // the MD5 hex digest
    catalogue: seq<CatalogueRow>,         // rows of data/hash.csv
    info: Option<seq<InfoEntry>>,         // data/info.json; None when unreadable or not JSON
    settings: Option<Settings>,           // global.settings, possibly undefined
    yara: (string, Path) -> SpawnResult,  // `yr scan -C <rules> <file>`
    canRename: Path -> bool)              // whether renameSync of an existing file into quarantine succeeds

  /** The `dbConnection` and `yaraRules` arguments of `scanFile`. */
  datatype Ctx = Ctx(db: Option<Table>, rules: string)

  /** One entry appended to `data/logs.json` per folder scan; `time` is the
      `Date.now()` value in milliseconds. */
  datatype LogEntry = LogEntry(scanType: string, filesScanned: nat, threats: nat, time: nat, folder: Path)

  /** The persistent state the scanner reads and writes: file contents, the
      whitelist file (absent or its text), the quarantine ledger and the
      scan log (None when missing or not JSON). */
  datatype Disk = Disk(files: map<Path, Bytes>, whitelist: Option<string>, ledger: LedgerFile,
                       logs: Option<seq<LogEntry>>)

  /** `scanFile`'s result. The three hits are `matched: true`; `FamilyHit`
      and `StoreHit` both carry `type: "primary_bloom"`. */
  datatype ScanResult =
    | HashError                                   // { matched: false, result: "hash_error" }
    | Whitelisted(hash: string, file: Path)       // type "whitelist"
    | FamilyHit(hash: string, signature: string, file: Path, quarantined: bool)
    | StoreHit(hash: string, firstSeen: string, signature: string, file: Path, quarantined: bool)
    | YaraHit(matches: string, file: Path, quarantined: bool)
    | NoVerdict                                   // { matched: false, result: null }
    | Learned(hash: string, file: Path)           // type "new_whitelist"
  {
    predicate Matched() {
      FamilyHit? || StoreHit? || YaraHit?
    }

    predicate IsQuarantined() {
      Matched() && quarantined
    }
  }

  const QuarantineDir: Path := "data/quarantine"

  /** Where `moveToQuarantine` renames a file to. */
  function QuarantinePath(p: Path): Path {
    JoinPath(QuarantineDir, Basename(p))
  }

  // ---------------------------------------------------------------- whitelist

  /** `loadWhitelist`: the non-empty trimmed lines of the whitelist file. */
  function WhitelistSet(f: Option<string>): set<string> {
    if f.None? then {} else TrimmedSet(Split(f.value, '\n'))
  }

  /** `addToWhitelist`: `appendFileSync(whitelist, hash + '\n')`. */
  function AppendWhitelist(f: Option<string>, h: string): Option<string> {
    Some(f.GetOr("") + h + "\n")
  }

  /** Every write leaves the whitelist empty or ending in a line break. */
  predicate WellFormedWhitelist(f: Option<string>) {
    f.None? || f.value == "" || EndsWith(f.value, "\n")
  }

  /** A lower-case MD5 hex digest, as `digest("hex")` produces. */
  predicate IsHexDigest(s: string) {
    |s| == 32 && forall i :: 0 <= i < |s| ==> s[i] in "0123456789abcdef"
  }

  lemma HexDigestIsOneLine(h: string)
    requires IsHexDigest(h)
    ensures h != "" && '\n' !in h && Trim(h) == h
  {
    assert !IsSpace(h[0]) && !IsSpace(h[|h| - 1]);
    forall i | 0 <= i < |h| ensures h[i] != '\n' {
      assert h[i] in "0123456789abcdef";
    }
  }

  /** Appending a hash line to a well-formed whitelist adds exactly that
      hash to the loaded set and keeps the file well-formed. */
  lemma AppendWhitelistAdds(f: Option<string>, h: string)
    requires WellFormedWhitelist(f)
    requires h != "" && '\n' !in h && Trim(h) == h
    ensures WhitelistSet(AppendWhitelist(f, h)) == WhitelistSet(f) + {h}
    ensures WellFormedWhitelist(AppendWhitelist(f, h))
  {
    WhitelistSetBefore(f);
    WhitelistSetAfter(f, h);
  }

  /** A whitelist whose last line has no line break, which `loadWhitelist`
      reads like any other, is not extended by `addToWhitelist`: the hash is
      glued to that last line, so the set loses the old line and does not
      gain the hash. */
  lemma UnterminatedWhitelistSwallowsHash(t: string, h: string)
    requires t != "" && '\n' !in t && Trim(t) == t
    requires h != "" && '\n' !in h && Trim(h) == h
    ensures WhitelistSet(Some(t)) == {t}
    ensures WhitelistSet(AppendWhitelist(Some(t), h)) == {t + h}
    ensures h !in WhitelistSet(AppendWhitelist(Some(t), h)) && t !in WhitelistSet(AppendWhitelist(Some(t), h))
  {
    var l := t + h;
    GluedLine(t, h);
    TrimUnspaced(l);
    SingleLineWhitelist(t);
    TerminatedLineWhitelist(l);
    assert AppendWhitelist(Some(t), h) == Some(l + "\n");
    assert |l| > |h| && |l| > |t|;
  }

  /** A whitelist of one line without a line break. */
  lemma SingleLineWhitelist(t: string)
    requires '\n' !in t && Trim(t) != ""
    ensures WhitelistSet(Some(t)) == {Trim(t)}
  {
    SplitNoSep(t, '\n');
    TrimmedSingleton(t);
  }

  /** A whitelist of one line ended by a line break. */
  lemma TerminatedLineWhitelist(l: string)
    requires '\n' !in l && Trim(l) != ""
    ensures WhitelistSet(Some(l + "\n")) == {Trim(l)}
  {
    LastLine(l);
    TrimmedSingleton(l);
    assert |Trim("")| == 0;
    TrimmedBlankTail([l], "");
    assert [l] + [""] == [l, ""];
  }

  /** A single line gives its trimmed self, unless it is blank. */
  lemma TrimmedSingleton(l: string)
    ensures TrimmedSet([l]) == if Trim(l) != "" then {Trim(l)} else {}
  {
    assert [l][..0] == [];
  }

  /** A blank last piece adds nothing. */
  lemma TrimmedBlankTail(p: seq<string>, e: string)
    requires Trim(e) == ""
    ensures TrimmedSet(p + [e]) == TrimmedSet(p)
  {
    assert (p + [e])[..|p|] == p;
  }

  /** The hash glued to the unterminated line is one line without
      surrounding whitespace. */
  lemma GluedLine(t: string, h: string)
    requires t != "" && '\n' !in t && Trim(t) == t
    requires h != "" && '\n' !in h && Trim(h) == h
    ensures '\n' !in t + h
    ensures !IsSpace((t + h)[0]) && !IsSpace((t + h)[|t + h| - 1])
  {
    var l := t + h;
    assert '\n' !in l by {
      forall i | 0 <= i < |l| ensures l[i] != '\n' {
        if i < |t| {
          assert l[i] == t[i];
        } else {
          assert l[i] == h[i - |t|];
        }
      }
    }
    assert l[0] == t[0] && l[|l| - 1] == h[|h| - 1];
  }

  /** A line and its line break split into the line and an empty piece. */
  lemma LastLine(l: string)
    requires '\n' !in l
    ensures Split(l + "\n", '\n') == [l, ""]
  {
    SplitNoSep(l, '\n');
    assert l + "\n" == l + ['\n'] + "";
    SplitAppend(l, '\n', "");
  }

  /** `trim()` leaves a string without surrounding whitespace alone. */
  lemma TrimUnspaced(s: string)
    requires s != "" && !IsSpace(s[0]) && !IsSpace(s[|s| - 1])
    ensures Trim(s) == s
  {
  }

  /** The complete lines of a well-formed whitelist text. */
  function Lines(t: string): seq<string> {
    if t == "" then [] else Split(t[..|t| - 1], '\n')
  }

  lemma WhitelistSetBefore(f: Option<string>)
    requires WellFormedWhitelist(f)
    ensures WhitelistSet(f) == TrimmedSet(Lines(f.GetOr("")))
  {
    if f.Some? {
      if f.value == "" {
        EmptyTextHasNoLines();
      } else {
        CompleteLinesSet(f.value);
      }
    }
  }

  lemma EmptyTextHasNoLines()
    ensures TrimmedSet(Split("", '\n')) == {} && Lines("") == []
  {
    assert Split("", '\n') == [""];
    assert Trim("") == "";
    assert [""][..0] == [];
  }

  lemma CompleteLinesSet(t: string)
    requires EndsWith(t, "\n")
    ensures TrimmedSet(Split(t, '\n')) == TrimmedSet(Lines(t))
  {
    var t0 := t[..|t| - 1];
    assert t == t0 + ['\n'] + "";
    SplitAppend(t0, '\n', "");
    var p := Lines(t);
    assert Split(t, '\n') == p + [""];
    TrimmedSetSnoc(p, "");
    assert Trim("") == "";
  }

  lemma WhitelistSetAfter(f: Option<string>, h: string)
    requires WellFormedWhitelist(f)
    requires h != "" && '\n' !in h && Trim(h) == h
    ensures WhitelistSet(AppendWhitelist(f, h)) == TrimmedSet(Lines(f.GetOr(""))) + {h}
  {
    var t := f.GetOr("");
    var u := t + h + "\n";
    var p := Lines(t);
    assert AppendWhitelist(f, h) == Some(u);
    SplitOfLines(t, h);
    assert p + [h, ""] == (p + [h]) + [""];
    TrimmedSetSnoc(p + [h], "");
    TrimmedSetSnoc(p, h);
    assert Trim("") == "";
  }

  /** The pieces of a well-formed text with one more line appended. */
  lemma SplitOfLines(t: string, h: string)
    requires t == "" || EndsWith(t, "\n")
    requires '\n' !in h
    ensures Split(t + h + "\n", '\n') == Lines(t) + [h, ""]
  {
    SplitNoSep(h, '\n');
    SplitAppend(h, '\n', "");
    assert h + "\n" == h + ['\n'] + "";
    if t == "" {
      assert t + h + "\n" == h + "\n";
    } else {
      var t0 := t[..|t| - 1];
      assert t == t0 + ['\n'] + "";
      SplitAppend(t0, '\n', "");
      SplitAppend(t0, '\n', h + "\n");
      assert t + h + "\n" == t0 + ['\n'] + (h + "\n");
    }
  }

  /** One more line adds its trimmed form, if it is not blank. */
  lemma TrimmedSetSnoc(p: seq<string>, x: string)
    ensures TrimmedSet(p + [x]) == TrimmedSet(p) + (if Trim(x) != "" then {Trim(x)} else {})
  {
    assert (p + [x])[..|p|] == p;
  }

  // ---------------------------------------------------------------- catalogue

  /** `getDirectoryNameForHash`: the directory of the LAST catalogue row
      whose "MD5 Hash" equals the hash (each matching row overwrites). */
  function FamilyName(rows: seq<CatalogueRow>, h: string): Option<string> {
    if |rows| == 0 then None
    else if rows[|rows| - 1].md5Hash == h then Some(rows[|rows| - 1].directoryName)
    else FamilyName(rows[..|rows| - 1], h)
  }

  /** The catalogue lookup answers with the last matching row. */
  lemma {:induction false} FamilyNameIsLastMatch(rows: seq<CatalogueRow>, h: string)
    ensures FamilyName(rows, h).None? <==> forall i :: 0 <= i < |rows| ==> rows[i].md5Hash != h
    ensures FamilyName(rows, h).Some? ==>
      exists i :: 0 <= i < |rows| && rows[i].md5Hash == h && rows[i].directoryName == FamilyName(rows, h).value &&
                  forall j :: i < j < |rows| ==> rows[j].md5Hash != h
  {
    if |rows| > 0 && rows[|rows| - 1].md5Hash != h {
      var init := rows[..|rows| - 1];
      FamilyNameIsLastMatch(init, h);
      if FamilyName(init, h).None? {
        forall i | 0 <= i < |rows| ensures rows[i].md5Hash != h {
          if i < |init| {
            assert rows[i] == init[i];
          }
        }
      } else {
        var i :| 0 <= i < |init| && init[i].md5Hash == h && init[i].directoryName == FamilyName(init, h).value &&
                 forall j :: i < j < |init| ==> init[j].md5Hash != h;
        assert rows[i] == init[i];
        forall j | i < j < |rows| ensures rows[j].md5Hash != h {
          if j < |init| {
            assert rows[j] == init[j];
          }
        }
      }
      if exists i :: 0 <= i < |init| && init[i].md5Hash == h {
        var i :| 0 <= i < |init| && init[i].md5Hash == h;
        assert rows[i] == init[i];
      }
    }
  }

  /** `Array.prototype.find` on `info.json` by `name`. */
  function FirstNamed(es: seq<InfoEntry>, name: string): (r: Option<InfoEntry>)
    ensures r.Some? ==> r.value in es && r.value.name == name
  {
    if |es| == 0 then None
    else if es[0].name == name then Some(es[0])
    else FirstNamed(es[1..], name)
  }

  /** `getMalwareInfo(directoryName)`: `null` when the directory is missing,
      `info.json` cannot be read, or no entry carries that name. */
  function FindInfo(info: Option<seq<InfoEntry>>, dir: Option<string>): (r: Option<InfoEntry>)
    ensures r.Some? ==> dir.Some? && info.Some? && r.value in info.value && r.value.name == dir.value
  {
    if info.None? || dir.None? then None else FirstNamed(info.value, dir.value)
  }

  /** `find` answers with the first entry of that name, if there is one. */
  lemma {:induction false} FirstNamedIsFirst(es: seq<InfoEntry>, name: string)
    ensures FirstNamed(es, name).None? <==> forall i :: 0 <= i < |es| ==> es[i].name != name
    ensures FirstNamed(es, name).Some? ==>
      exists i :: 0 <= i < |es| && es[i] == FirstNamed(es, name).value && es[i].name == name &&
                  forall j :: 0 <= j < i ==> es[j].name != name
  {
    if |es| > 0 && es[0].name != name {
      var tail := es[1..];
      FirstNamedIsFirst(tail, name);
      if FirstNamed(tail, name).Some? {
        var i :| 0 <= i < |tail| && tail[i] == FirstNamed(tail, name).value && tail[i].name == name &&
                 forall j :: 0 <= j < i ==> tail[j].name != name;
        assert es[i + 1] == tail[i];
        forall j | 0 <= j < i + 1 ensures es[j].name != name {
          if j > 0 {
            assert es[j] == tail[j - 1];
          }
        }
      } else {
        forall i | 0 <= i < |es| ensures es[i].name != name {
          if i > 0 {
            assert es[i] == tail[i - 1];
          }
        }
      }
      if exists i :: 0 <= i < |tail| && tail[i].name == name {
        var i :| 0 <= i < |tail| && tail[i].name == name;
        assert es[i + 1] == tail[i];
      }
    }
  }

  // ---------------------------------------------------------------- database

  /** What `checkHash` resolves with: the signature (one pair of double
      quotes stripped, `null` read as `''`) and `first_seen_utc`. */
  datatype Match = Match(signature: string, firstSeen: string)

  function Quoted(h: string): string {
    "\"" + h + "\""
  }

  function ToMatch(row: Row): Match {
    Match(Unquote(row.signature, DoubleQuote), row.firstSeen)
  }

  /** `checkHash`: `WHERE md5_hash = hash OR md5_hash = "hash"`. When both
      keys are present the plain one is taken. */
  function CheckHash(t: Table, h: string): Option<Match> {
    if h in t then Some(ToMatch(t[h]))
    else if Quoted(h) in t then Some(ToMatch(t[Quoted(h)]))
    else None
  }

  /** The database tier finds a hash exactly when the table holds it bare or
      wrapped in double quotes. */
  lemma CheckHashFindsBareOrQuoted(t: Table, h: string)
    ensures CheckHash(t, h).Some? <==> h in t || Quoted(h) in t
    ensures h in t ==> CheckHash(t, h) == Some(ToMatch(t[h]))
    ensures h !in t && Quoted(h) in t ==> CheckHash(t, h) == Some(ToMatch(t[Quoted(h)]))
  {
  }

  // ---------------------------------------------------------------- quarantine

  /** `renameSync(from, to)` on the file map. */
  function MoveFile(files: map<Path, Bytes>, from: Path, to: Path): map<Path, Bytes>
    requires from in files
  {
    (files - {from})[to := files[from]]
  }

  /** `moveToQuarantine` succeeds: the file exists and the rename is allowed. */
  predicate Moves(d: Disk, env: Env, path: Path) {
    path in d.files && env.canRename(path)
  }

  /** The disk after a successful move and the ledger append that follows it. */
  function QuarantineAndLog(d: Disk, path: Path, rec: Record): Disk
    requires path in d.files
  {
    d.(files := MoveFile(d.files, path, QuarantinePath(path)), ledger := AppendRecord(d.ledger, rec))
  }

  function FamilyRecord(path: Path, dir: string, h: string, info: InfoEntry): Record {
    var a := info.analysis;
    Record(Basename(path), dir, path, h,
           FamilyDetail(info.description,
                        if a.Some? then a.value.cveScores else None,
                        if a.Some? then a.value.history else None,
                        if a.Some? then a.value.origin else None,
                        if a.Some? then a.value.authorship else None,
                        if a.Some? then a.value.affectedNations else None,
                        if a.Some? then a.value.detectionTechniques else None))
  }

  function StoreRecord(path: Path, h: string, m: Match): Record {
    Record(Basename(path), if m.signature != "" then m.signature else "Unknown", path, h, RuleDetail("", ""))
  }

  const YaraKind := "YARA Detection"

  function YaraRecord(path: Path, h: string, rule: string): Record {
    Record(Basename(path), YaraKind, path, h, RuleDetail(rule, ""))
  }

  // ---------------------------------------------------------------- the ladder

  predicate YaraEnabled(env: Env) {
    env.settings.Some? && env.settings.value.yara
  }

  /** `scanFile(filePath, dbConnection, yaraRules)`. */
  function ScanFileSpec(d: Disk, env: Env, ctx: Ctx, path: Path): (ScanResult, Disk) {
    match ComputeHash(d.files, env.md5, path)
    case None => (HashError, d)
    case Some(h) =>
      if h in WhitelistSet(d.whitelist) then (Whitelisted(h, path), d)
      else
        var dir := FamilyName(env.catalogue, h);
        var info := FindInfo(env.info, dir);
        if info.Some? && Moves(d, env, path) then
          (FamilyHit(h, dir.value, path, true), QuarantineAndLog(d, path, FamilyRecord(path, dir.value, h, info.value)))
        else
          StoreTier(d, env, ctx, path, h)
  }

  /** The database tier and what follows it, reached after a catalogue miss
      or a catalogue hit whose move failed. */
  function StoreTier(d: Disk, env: Env, ctx: Ctx, path: Path, h: string): (ScanResult, Disk)
    requires path in d.files
  {
    var m := if ctx.db.Some? then CheckHash(ctx.db.value, h) else None;
    if m.Some? then
      if Moves(d, env, path) then
        (StoreHit(h, m.value.firstSeen, m.value.signature, path, true),
         QuarantineAndLog(d, path, StoreRecord(path, h, m.value)))
      else
        (StoreHit(h, m.value.firstSeen, m.value.signature, path, false), d)
    else
      YaraTier(d, env, ctx, path, h)
  }

  /** The YARA tier; on a miss, learning happens only with a database. */
  function YaraTier(d: Disk, env: Env, ctx: Ctx, path: Path, h: string): (ScanResult, Disk)
    requires path in d.files
  {
    var y := RunYara(YaraEnabled(env), env.yara(ctx.rules, path));
    if y.Some? then
      if Moves(d, env, path) then
        (YaraHit(y.value, path, true), QuarantineAndLog(d, path, YaraRecord(path, h, y.value)))
      else
        (YaraHit(y.value, path, false), d)
    else if ctx.db.None? then
      (NoVerdict, d)
    else
      (Learned(h, path), d.(whitelist := AppendWhitelist(d.whitelist, h)))
  }

  // ---------------------------------------------------------------- properties

  /** An unreadable file yields `hash_error` before any lookup and changes nothing. */
  lemma HashErrorChangesNothing(d: Disk, env: Env, ctx: Ctx, path: Path)
    requires path !in d.files
    ensures ScanFileSpec(d, env, ctx, path) == (HashError, d)
  {
  }

  /** A whitelisted hash is reported as such, unmatched, with no side effect. */
  lemma WhitelistedChangesNothing(d: Disk, env: Env, ctx: Ctx, path: Path)
    requires path in d.files
    requires Lower(env.md5(d.files[path])) in WhitelistSet(d.whitelist)
    ensures ScanFileSpec(d, env, ctx, path) == (Whitelisted(Lower(env.md5(d.files[path])), path), d)
    ensures !ScanFileSpec(d, env, ctx, path).0.Matched()
  {
  }

  /** The side effects `r` allows between `d` and `d'`: a quarantined result
      moved the file and appended one ledger record about it; any other
      result left files and ledger alone; only a learned hash touches the
      whitelist; the scan log never changes. */
  predicate Effects(d: Disk, path: Path, r: ScanResult, d': Disk) {
    && d'.logs == d.logs
    && (r.IsQuarantined() ==>
          && path in d.files
          && d'.files == MoveFile(d.files, path, QuarantinePath(path))
          && |ReadLedger(d'.ledger)| == |ReadLedger(d.ledger)| + 1
          && ReadLedger(d'.ledger)[..|ReadLedger(d.ledger)|] == ReadLedger(d.ledger)
          && ReadLedger(d'.ledger)[|ReadLedger(d.ledger)|].oldPath == path
          && ReadLedger(d'.ledger)[|ReadLedger(d.ledger)|].name == Basename(path))
    && (!r.IsQuarantined() ==> d'.files == d.files && d'.ledger == d.ledger)
    && (r.Learned? ==> d'.whitelist == AppendWhitelist(d.whitelist, r.hash))
    && (!r.Learned? ==> d'.whitelist == d.whitelist)
  }

  lemma QuarantineAndLogEffects(d: Disk, path: Path, rec: Record, r: ScanResult)
    requires path in d.files && r.IsQuarantined()
    requires rec.oldPath == path && rec.name == Basename(path)
    ensures Effects(d, path, r, QuarantineAndLog(d, path, rec))
  {
    var g := AppendRecord(d.ledger, rec);
    assert ReadLedger(g) == g.records;
  }

  lemma YaraTierEffects(d: Disk, env: Env, ctx: Ctx, path: Path, h: string)
    requires path in d.files
    ensures var (r, d') := YaraTier(d, env, ctx, path, h);
      Effects(d, path, r, d') && (r.Learned? ==> r.hash == h)
  {
    var y := RunYara(YaraEnabled(env), env.yara(ctx.rules, path));
    if y.Some? && Moves(d, env, path) {
      QuarantineAndLogEffects(d, path, YaraRecord(path, h, y.value), YaraHit(y.value, path, true));
    }
  }

  lemma StoreTierEffects(d: Disk, env: Env, ctx: Ctx, path: Path, h: string)
    requires path in d.files
    ensures var (r, d') := StoreTier(d, env, ctx, path, h);
      Effects(d, path, r, d') && (r.Learned? ==> r.hash == h)
  {
    var m := if ctx.db.Some? then CheckHash(ctx.db.value, h) else None;
    if m.Some? {
      if Moves(d, env, path) {
        QuarantineAndLogEffects(d, path, StoreRecord(path, h, m.value),
                                StoreHit(h, m.value.firstSeen, m.value.signature, path, true));
      }
    } else {
      YaraTierEffects(d, env, ctx, path, h);
    }
  }

  /** Every side effect of one call is one that its result allows. */
  lemma ScanFileEffects(d: Disk, env: Env, ctx: Ctx, path: Path)
    ensures Effects(d, path, ScanFileSpec(d, env, ctx, path).0, ScanFileSpec(d, env, ctx, path).1)
    ensures ScanFileSpec(d, env, ctx, path).0.Learned? ==>
      path in d.files && ScanFileSpec(d, env, ctx, path).0.hash == Lower(env.md5(d.files[path]))
  {
    if path in d.files {
      var h := Lower(env.md5(d.files[path]));
      if h !in WhitelistSet(d.whitelist) {
        var dir := FamilyName(env.catalogue, h);
        var info := FindInfo(env.info, dir);
        if info.Some? && Moves(d, env, path) {
          QuarantineAndLogEffects(d, path, FamilyRecord(path, dir.value, h, info.value),
                                  FamilyHit(h, dir.value, path, true));
        } else {
          StoreTierEffects(d, env, ctx, path, h);
        }
      }
    }
  }

  /** A matched result is quarantined exactly when the rename succeeds. */
  lemma QuarantinedIffMoved(d: Disk, env: Env, ctx: Ctx, path: Path)
    requires ScanFileSpec(d, env, ctx, path).0.Matched()
    ensures ScanFileSpec(d, env, ctx, path).0.quarantined <==> Moves(d, env, path)
  {
  }

  /** A catalogue hit counts only if its file was moved: when the move fails
      the call behaves exactly as if the catalogue had no such hash. */
  lemma FailedFamilyMoveFallsThrough(d: Disk, env: Env, ctx: Ctx, path: Path)
    requires !Moves(d, env, path)
    ensures ScanFileSpec(d, env, ctx, path) == ScanFileSpec(d, env.(catalogue := []), ctx, path)
    ensures !ScanFileSpec(d, env, ctx, path).0.FamilyHit?
  {
  }

  /** A moved catalogue hit is final: the database and YARA are never asked. */
  lemma FamilyHitPrecedesStore(d: Disk, env: Env, ctx: Ctx, ctx': Ctx, path: Path)
    requires path in d.files && Moves(d, env, path)
    requires Lower(env.md5(d.files[path])) !in WhitelistSet(d.whitelist)
    requires FindInfo(env.info, FamilyName(env.catalogue, Lower(env.md5(d.files[path])))).Some?
    ensures ScanFileSpec(d, env, ctx, path).0.FamilyHit?
    ensures ScanFileSpec(d, env, ctx, path) == ScanFileSpec(d, env, ctx', path)
  {
  }

  /** A database hit is final whatever YARA would say, and is quarantined
      exactly when the move succeeds. */
  lemma StoreHitPrecedesYara(d: Disk, env: Env, ctx: Ctx, path: Path, yara': (string, Path) -> SpawnResult)
    requires path in d.files
    requires Lower(env.md5(d.files[path])) !in WhitelistSet(d.whitelist)
    requires !(FindInfo(env.info, FamilyName(env.catalogue, Lower(env.md5(d.files[path])))).Some? && Moves(d, env, path))
    requires ctx.db.Some? && CheckHash(ctx.db.value, Lower(env.md5(d.files[path]))).Some?
    ensures ScanFileSpec(d, env, ctx, path).0.StoreHit?
    ensures ScanFileSpec(d, env, ctx, path).0.quarantined == Moves(d, env, path)
    ensures ScanFileSpec(d, env, ctx, path) == ScanFileSpec(d, env.(yara := yara'), ctx, path)
  {
  }

  /** Learning needs a database connection; without one a total miss is
      `{ matched: false, result: null }` and changes nothing. */
  lemma LearningNeedsDatabase(d: Disk, env: Env, ctx: Ctx, path: Path)
    ensures ScanFileSpec(d, env, ctx, path).0.Learned? ==> ctx.db.Some?
    ensures ctx.db.None? && ScanFileSpec(d, env, ctx, path).0.NoVerdict? ==> ScanFileSpec(d, env, ctx, path).1 == d
    ensures ctx.db.Some? ==> !ScanFileSpec(d, env, ctx, path).0.NoVerdict?
  {
  }

  /** A learned file is whitelisted on its next scan, so learning never
      writes the same hash twice. */
  lemma LearnedThenWhitelisted(d: Disk, env: Env, ctx: Ctx, path: Path)
    requires WellFormedWhitelist(d.whitelist)
    requires path in d.files && IsHexDigest(Lower(env.md5(d.files[path])))
    requires ScanFileSpec(d, env, ctx, path).0.Learned?
    ensures var (r, d') := ScanFileSpec(d, env, ctx, path);
      ScanFileSpec(d', env, ctx, path) == (Whitelisted(r.hash, path), d')
  {
    var h := Lower(env.md5(d.files[path]));
    HexDigestIsOneLine(h);
    AppendWhitelistAdds(d.whitelist, h);
    ScanFileEffects(d, env, ctx, path);
    var d' := ScanFileSpec(d, env, ctx, path).1;
    assert d'.files == d.files;
    assert h in WhitelistSet(d'.whitelist);
  }
}

=== FILE: cli.dfy ===
/** The entry points of `scanner/scanner.cjs`: the command-line options and
    `scanInput`, which opens the database, picks the YARA rules and runs a
    file or folder scan. */
module Cli {
  import opened Base
  import opened Files
  import opened Store
  import opened Classifier
  import opened Host
  import opened CsvImport
  import opened Args
  import Text

  /** The options object `scanInput` receives. */
  datatype Options = Options(dbPath: Option<string>, yaraPath: Option<string>, filePath: Option<string>,
                             folderPath: Option<string>, whitelistPath: Option<string>)

  const Flags: set<string> := {"--db", "--yara", "--file", "--folder", "--whitelist"}
  const DefaultRules := "./output.yarc"

  /** The options the command line yields, starting from the loop's defaults. */
  function OptionsOf(f: Args.Flags): Options {
    Options(Get(f, "--db", None), Get(f, "--yara", Some(DefaultRules)), Get(f, "--file", None),
            Get(f, "--folder", None), Get(f, "--whitelist", None))
  }

  /** The argument loop: the options, or the message printed before `exit(1)`. */
  function CommandLine(args: seq<string>): Result<Options> {
    match Parse(args, Flags, map[])
    case Success(f) => Success(OptionsOf(f))
    case Failure(e) => Failure(e)
  }

  /** A command line naming each option once. */
  function Render5(db: string, yara: string, file: string, folder: string, whitelist: string): seq<string> {
    Render([("--db", db), ("--yara", yara), ("--file", file), ("--folder", folder), ("--whitelist", whitelist)])
  }

  /** Every option given on the command line arrives in `scanInput` as given. */
  lemma CommandLineRoundTrip(db: string, yara: string, file: string, folder: string, whitelist: string)
    ensures CommandLine(Render5(db, yara, file, folder, whitelist)) ==
            Success(Options(Some(db), Some(yara), Some(file), Some(folder), Some(whitelist)))
  {
    var pairs := [("--db", db), ("--yara", yara), ("--file", file), ("--folder", folder), ("--whitelist", whitelist)];
    ParseRender(pairs, Flags, map[]);
    var m1: Args.Flags := map["--db" := Some(db)];
    var m2 := m1["--yara" := Some(yara)];
    var m3 := m2["--file" := Some(file)];
    var m4 := m3["--folder" := Some(folder)];
    var m5 := m4["--whitelist" := Some(whitelist)];
    assert Apply(map[], pairs) == Apply(m1, pairs[1..]);
    assert Apply(m1, pairs[1..]) == Apply(m2, pairs[2..]);
    assert Apply(m2, pairs[2..]) == Apply(m3, pairs[3..]);
    assert Apply(m3, pairs[3..]) == Apply(m4, pairs[4..]);
    assert Apply(m4, pairs[4..]) == Apply(m5, pairs[5..]);
    assert pairs[5..] == [];
  }

  /** Omitted options keep their defaults: no database, the stock rules. */
  lemma EmptyCommandLineDefaults()
    ensures CommandLine([]) == Success(Options(None, Some(DefaultRules), None, None, None))
  {
  }

  /** An argument that is not one of the five flags stops the process. */
  lemma UnknownArgumentRejected(args: seq<string>)
    requires |args| > 0 && args[0] !in Flags
    ensures CommandLine(args) == Failure("Unknown argument: " + args[0])
  {
  }

  /** The rules file `scanInput` hands to YARA. */
  function RulesPath(o: Options): string {
    if Truthy(o.yaraPath) then o.yaraPath.value else DefaultRules
  }

  const MissingTargetError := "Either filePath or folderPath option is required"
  const SettingsTypeError := "TypeError: Cannot read properties of undefined (reading 'yara')"

  /** The closing status line, as written: `"Yara status" + global.settings.yara`
      throws when `global.settings` is undefined, which the command-line entry
      never sets. */
  function YaraStatusLine(settings: Option<Settings>): Result<string> {
    if settings.None? then Failure(SettingsTypeError)
    else Success("Yara status" + (if settings.value.yara then "true" else "false"))
  }

  /** On the command line every scan ends in that exception, after the scan
      has already quarantined, logged and whitelisted. */
  lemma YaraStatusLineThrowsWithoutSettings()
    ensures YaraStatusLine(None) == Failure(SettingsTypeError)
  {
  }

  /** The status line with `global.settings?.yara`, as `runYaraScan` reads it. */
  function YaraStatusLineSafe(settings: Option<Settings>): (line: string)
    ensures YaraStatusLine(settings).Success? ==> line == YaraStatusLine(settings).value
    ensures settings.None? ==> line == "Yara statusundefined"
  {
    if settings.None? then "Yara statusundefined"
    else "Yara status" + (if settings.value.yara then "true" else "false")
  }

  /** What `scanInput` resolves with. */
  datatype InputOutcome =
    | MissingTarget                      // throws MissingTargetError
    | FileScanned(result: ScanResult)
    | FolderScanned(outcome: FolderOutcome)

  /** The rows `dbConnection` holds: none without a database path; the
      rows of the cached connection when there is one; otherwise the rows
      of the database at `dbPath`, seeded from the CSV text when they are
      empty and the path ends in `.csv`. */
  function OpenedRows(options: Options, cached: Option<Table>, dbRows: Table, dbText: string): Option<Table> {
    if !Truthy(options.dbPath) then None
    else if cached.Some? then cached
    else Some(if |dbRows| == 0 && Text.EndsWith(options.dbPath.value, ".csv")
              then ImportSpec(dbRows, dbText).0 else dbRows)
  }

  /** `dbConnection`: `loadCsvToBloom(dbPath)` when a path is given, else `null`. */
  method OpenDatabase(options: Options, connector: Connector, db: Database, dbText: string)
    returns (rows: Option<Table>)
    requires connector.Valid() && db.Valid()
    modifies connector, db
    ensures connector.Valid()
    ensures Truthy(options.dbPath) ==> connector.connection != null && rows == Some(connector.connection.rows)
    ensures rows == OpenedRows(options, old(if connector.connection != null then Some(connector.connection.rows) else None),
                               old(db.rows), dbText)
    ensures Truthy(options.dbPath) && old(connector.connection) != null ==>
      connector.connection == old(connector.connection) && db.rows == old(db.rows)
    ensures Truthy(options.dbPath) && old(connector.connection) == null ==> connector.connection == db
    ensures !Truthy(options.dbPath) ==> connector.connection == old(connector.connection) && db.rows == old(db.rows)
  {
    rows := None;
    if Truthy(options.dbPath) {
      var conn := connector.LoadCsvToBloom(options.dbPath.value, db, dbText);
      rows := Some(conn.rows);
    }
  }

  /** `scanInput(options)`, with the status line read through `?.`. The
      database file at `dbPath` is `db` (its text `dbText` for the CSV
      import); the folder's directory tree is `tree`, and
      `now` is the clock reading for the scan log entry. */
  method ScanInput(options: Options, host: Host, status: ScanStatus, connector: Connector,
                   db: Database, dbText: string, env: Env, tree: Listing, now: nat)
    returns (out: InputOutcome, statusLine: string)
    requires connector.Valid() && db.Valid()
    modifies host, status, connector, db
    ensures out.MissingTarget? <==> !Truthy(options.filePath) && !Truthy(options.folderPath)
    ensures out.MissingTarget? ==>
      host.Snapshot() == old(host.Snapshot()) && connector.connection == old(connector.connection) &&
      db.rows == old(db.rows)
    ensures connector.Valid()
    ensures !out.MissingTarget? && Truthy(options.dbPath) ==> connector.connection != null
    ensures !out.MissingTarget? && Truthy(options.dbPath) && old(connector.connection) != null ==>
      connector.connection == old(connector.connection) && db.rows == old(db.rows)
    ensures !out.MissingTarget? && Truthy(options.dbPath) ==>
      Some(connector.connection.rows) ==
        OpenedRows(options, old(if connector.connection != null then Some(connector.connection.rows) else None),
                   old(db.rows), dbText)
    ensures !out.MissingTarget? && Truthy(options.dbPath) && old(connector.connection) == null ==>
      connector.connection == db
    ensures !out.MissingTarget? && !Truthy(options.dbPath) ==>
      connector.connection == old(connector.connection) && db.rows == old(db.rows)
    ensures out.FileScanned? ==>
      var ctx := Ctx(OpenedRows(options, old(if connector.connection != null then Some(connector.connection.rows) else None),
                                old(db.rows), dbText), RulesPath(options));
      Truthy(options.filePath) &&
      (out.result, host.Snapshot()) == ScanFileSpec(old(host.Snapshot()), env, ctx, options.filePath.value)
    ensures out.FileScanned? ==>
      && status.progress == old(status.progress) && status.currentFile == old(status.currentFile)
      && status.status == old(status.status) && status.progressTrace == old(status.progressTrace)
    ensures status.scanType == old(status.scanType)
    ensures out.FolderScanned? ==>
      !Truthy(options.filePath) && Truthy(options.folderPath) &&
      (out.outcome.EnumerationFailed? <==> AllFiles(options.folderPath.value, tree).Failure?) &&
      (out.outcome.NoFiles? <==> AllFiles(options.folderPath.value, tree) == Success([]))
    ensures out.FolderScanned? && (out.outcome.EnumerationFailed? || out.outcome.NoFiles?) ==>
      && host.Snapshot() == old(host.Snapshot())
      && status.progress == old(status.progress) && status.currentFile == old(status.currentFile)
      && status.status == old(status.status) && status.progressTrace == old(status.progressTrace)
    ensures out.FolderScanned? && AllFiles(options.folderPath.value, tree).Success? &&
            AllFiles(options.folderPath.value, tree).value != [] ==>
      var ctx := Ctx(OpenedRows(options, old(if connector.connection != null then Some(connector.connection.rows) else None),
                                old(db.rows), dbText), RulesPath(options));
      var ps := AllFiles(options.folderPath.value, tree).value;
      var (rs, d') := ScanAll(old(host.Snapshot()), env, ctx, ps);
      && status.progress == |ps| && status.currentFile == ps[|ps| - 1]
      && status.progressTrace == old(status.progressTrace) + Upto(|ps|)
      && (old(host.logs).None? ==>
            out.outcome == LogUnwritable && host.Snapshot() == d' && status.status == old(status.status))
      && (old(host.logs).Some? ==>
            && out.outcome == Completed(Report(|ps|, Tally(rs), Tally(rs).primaryBloom + Tally(rs).yara))
            && host.Snapshot() == d'.(logs := Some(old(host.logs).value +
                                    [LogEntry(old(status.scanType), |ps|, |Tally(rs).matchedFiles|, now,
                                              options.folderPath.value)]))
            && status.status == "completed")
    ensures !out.MissingTarget? ==> statusLine == YaraStatusLineSafe(env.settings)
  {
    if !Truthy(options.filePath) && !Truthy(options.folderPath) {
      return MissingTarget, "";
    }
    var rows := OpenDatabase(options, connector, db, dbText);
    var ctx := Ctx(rows, RulesPath(options));
    if Truthy(options.filePath) {
      var r := host.ScanFile(env, ctx, options.filePath.value);
      out := FileScanned(r);
    } else {
      var o := host.ScanFolder(status, env, ctx, options.folderPath.value, tree, now);
      out := FolderScanned(o);
    }
    statusLine := YaraStatusLineSafe(env.settings);
  }
}

=== FILE: csv_import.dfy ===
/** Seeding the SQLite store from a CSV export (`importCsvToDb` in
    `scanner/scanner.cjs`) and the cached connection that `loadCsvToBloom`
    hands to the scanner. */
module CsvImport {
  import opened Base
  import opened Text
  import opened Store

  /** A header cell: trimmed, one surrounding quote stripped, lower-cased. */
  function HeaderCell(c: string): string {
    Lower(Unquote(Trim(c), Quotes))
  }

  /** The header's cells, one per comma-separated piece, each normalised
      by `HeaderCell`; none holds an upper-case letter. */
  function HeaderCells(line: string): (cells: seq<string>)
    ensures |cells| == |Split(line, ',')|
    ensures forall i :: 0 <= i < |cells| ==> cells[i] == Lower(Unquote(Trim(Split(line, ',')[i]), Quotes))
    ensures forall i, j :: 0 <= i < |cells| && 0 <= j < |cells[i]| ==> !('A' <= cells[i][j] <= 'Z')
  {
    var raw := Split(line, ',');
    seq(|raw|, i requires 0 <= i < |raw| => HeaderCell(raw[i]))
  }

  /** Positions of the three columns in the header, -1 when absent. */
  datatype Columns = Columns(md5: int, firstSeen: int, signature: int)

  function FindColumns(header: string): Columns {
    var cells := HeaderCells(header);
    Columns(IndexOf(cells, "md5_hash"), IndexOf(cells, "first_seen_utc"), IndexOf(cells, "signature"))
  }

  /** `row[i]?.trim().replace(/^["']|["']$/g, '')`: undefined outside the row. */
  function Cell(row: seq<string>, i: int): Option<string> {
    if 0 <= i < |row| then Some(Unquote(Trim(row[i]), Quotes)) else None
  }

  /** The optional columns fall back to `''`. */
  function CellOrEmpty(row: seq<string>, i: int): string {
    var c := Cell(row, i);
    if Truthy(c) then c.value else ""
  }

  /** What one data line inserts: nothing for a blank line or an empty or
      missing hash cell, otherwise the hash with its two other cells. */
  function ParseLine(line: string, cols: Columns): Option<(string, Row)> {
    if Trim(line) == "" then None
    else
      var row := Split(line, ',');
      var m := Cell(row, cols.md5);
      if Truthy(m) then Some((m.value, Row(CellOrEmpty(row, cols.firstSeen), CellOrEmpty(row, cols.signature))))
      else None
  }

  /** The data lines inserted in order with `INSERT OR IGNORE`, and the
      number of `run` calls (ignored duplicates included). */
  function ImportLines(t: Table, lines: seq<string>, cols: Columns): (Table, nat) {
    if |lines| == 0 then (t, 0)
    else ImportLine(ImportLines(t, lines[..|lines| - 1], cols), lines[|lines| - 1], cols)
  }

  function ImportLine(acc: (Table, nat), line: string, cols: Columns): (Table, nat) {
    Insert(acc, ParseLine(line, cols))
  }

  /** One `run` of the prepared statement, when the line gave a row. */
  function Insert(acc: (Table, nat), p: Option<(string, Row)>): (Table, nat) {
    if p.Some? then (InsertOrIgnore(acc.0, p.value.0, p.value.1), acc.1 + 1) else acc
  }

  /** `importCsvToDb`: the first line is the header whatever it holds. */
  function ImportSpec(t: Table, content: string): (Table, nat) {
    var lines := Split(content, '\n');
    ImportLines(t, lines[1..], FindColumns(lines[0]))
  }

  /** The row the first data line with hash `k` supplies, if any. */
  function FirstRow(lines: seq<string>, cols: Columns, k: string): Option<Row> {
    if |lines| == 0 then None
    else
      var earlier := FirstRow(lines[..|lines| - 1], cols, k);
      var p := ParseLine(lines[|lines| - 1], cols);
      if earlier.Some? then earlier
      else if p.Some? && p.value.0 == k then Some(p.value.1)
      else None
  }

  /** Import never overwrites: a hash already stored keeps its row, a new
      hash gets the row of its FIRST line, and nothing else is added. */
  lemma {:induction false} ImportFirstWins(t: Table, lines: seq<string>, cols: Columns, k: string)
    ensures var t' := ImportLines(t, lines, cols).0;
      && (k in t ==> k in t' && t'[k] == t[k])
      && (k !in t ==> (k in t' <==> FirstRow(lines, cols, k).Some?))
      && (k !in t && k in t' ==> t'[k] == FirstRow(lines, cols, k).value)
  {
    if |lines| > 0 {
      ImportFirstWins(t, lines[..|lines| - 1], cols, k);
    }
  }

  /** The count is the number of accepted lines, so it bounds the rows added. */
  lemma {:induction false} ImportCountBoundsGrowth(t: Table, lines: seq<string>, cols: Columns)
    ensures t.Keys <= ImportLines(t, lines, cols).0.Keys
    ensures |ImportLines(t, lines, cols).0| <= |t| + ImportLines(t, lines, cols).1
    ensures ImportLines(t, lines, cols).1 <= |lines|
  {
    if |lines| > 0 {
      ImportCountBoundsGrowth(t, lines[..|lines| - 1], cols);
      var (t1, n) := ImportLines(t, lines[..|lines| - 1], cols);
      var p := ParseLine(lines[|lines| - 1], cols);
      if p.Some? {
        var t2 := InsertOrIgnore(t1, p.value.0, p.value.1);
        assert t2.Keys == t1.Keys + {p.value.0};
        assert |t1.Keys + {p.value.0}| <= |t1.Keys| + 1;
        assert |t2| == |t2.Keys|;
        assert |t1| == |t1.Keys|;
      }
    }
  }

  /** The number of data lines that yield a row, counted from the front. */
  function Accepted(lines: seq<string>, cols: Columns): nat {
    if |lines| == 0 then 0
    else (if ParseLine(lines[0], cols).Some? then 1 else 0) + Accepted(lines[1..], cols)
  }

  lemma {:induction false} AcceptedSnoc(lines: seq<string>, l: string, cols: Columns)
    ensures Accepted(lines + [l], cols) == Accepted(lines, cols) + (if ParseLine(l, cols).Some? then 1 else 0)
  {
    if |lines| > 0 {
      assert (lines + [l])[1..] == lines[1..] + [l];
      AcceptedSnoc(lines[1..], l, cols);
    } else {
      assert ([] + [l])[1..] == [];
    }
  }

  /** `count` is exactly the number of lines with a non-empty hash cell,
      however many of them were ignored as duplicates. */
  lemma {:induction false} ImportCountIsAccepted(t: Table, lines: seq<string>, cols: Columns)
    ensures ImportLines(t, lines, cols).1 == Accepted(lines, cols)
  {
    if |lines| > 0 {
      var init := lines[..|lines| - 1];
      ImportCountIsAccepted(t, init, cols);
      AcceptedSnoc(init, lines[|lines| - 1], cols);
      assert init + [lines[|lines| - 1]] == lines;
    }
  }

  /** Without an `md5_hash` column no line is accepted. */
  lemma {:induction false} NoHashColumnImportsNothing(t: Table, lines: seq<string>, cols: Columns)
    requires cols.md5 == -1
    ensures ImportLines(t, lines, cols) == (t, 0)
  {
    if |lines| > 0 {
      NoHashColumnImportsNothing(t, lines[..|lines| - 1], cols);
    }
  }

  lemma MissingHashColumn(t: Table, content: string)
    requires "md5_hash" !in HeaderCells(Split(content, '\n')[0])
    ensures ImportSpec(t, content) == (t, 0)
  {
    var lines := Split(content, '\n');
    NoHashColumnImportsNothing(t, lines[1..], FindColumns(lines[0]));
  }

  lemma ImportLinesSnoc(t: Table, done: seq<string>, line: string, cols: Columns)
    ensures ImportLines(t, done + [line], cols) == Insert(ImportLines(t, done, cols), ParseLine(line, cols))
  {
    assert (done + [line])[..|done|] == done;
  }

  /** One data line of `importCsvToDb`'s loop, after the lines `done`. */
  method ImportRow(db: Database, cols: Columns, ghost t0: Table, ghost done: seq<string>, line: string, count: nat)
    returns (count': nat)
    requires db.Valid() && db.tableExists
    requires db.rows == ImportLines(t0, done, cols).0 && count == ImportLines(t0, done, cols).1
    modifies db
    ensures db.Valid() && db.tableExists
    ensures db.rows == ImportLines(t0, done + [line], cols).0 && count' == ImportLines(t0, done + [line], cols).1
  {
    ImportLinesSnoc(t0, done, line, cols);
    var parsed := ParseLine(line, cols);
    count' := count;
    if parsed.Some? {
      var (key, row) := parsed.value;
      db.InsertIgnoring(key, row);
      count' := count + 1;
    }
  }

  /** The row loop of `importCsvToDb` over the data lines. */
  method ImportData(db: Database, data: seq<string>, cols: Columns) returns (count: nat)
    requires db.Valid() && db.tableExists
    modifies db
    ensures db.Valid() && db.tableExists
    ensures db.rows == ImportLines(old(db.rows), data, cols).0 && count == ImportLines(old(db.rows), data, cols).1
  {
    ghost var t0 := db.rows;
    count := 0;
    for i := 0 to |data|
      invariant db.Valid() && db.tableExists
      invariant db.rows == ImportLines(t0, data[..i], cols).0 && count == ImportLines(t0, data[..i], cols).1
    {
      assert data[..i + 1] == data[..i] + [data[i]];
      count := ImportRow(db, cols, t0, data[..i], data[i], count);
    }
    assert data[..|data|] == data;
  }

  /** `importCsvToDb(db, csvPath)` with the file's text as `content`. */
  method ImportCsvToDb(db: Database, content: string) returns (count: nat)
    requires db.Valid() && db.tableExists
    modifies db
    ensures db.Valid() && db.tableExists
    ensures (db.rows, count) == ImportSpec(old(db.rows), content)
  {
    var lines := Split(content, '\n');
    count := ImportData(db, lines[1..], FindColumns(lines[0]));
  }

  /** `global.dbConnection`, created once per process. */
  class Connector {
    var connection: Database?

    ghost predicate Valid()
      reads this, connection
    {
      connection != null ==> connection.Valid() && connection.tableExists
    }

    constructor ()
      ensures Valid() && connection == null
    {
      connection := null;
    }

    /** `loadCsvToBloom(dbPath)`: the cached connection when there is one;
        otherwise the database `db` opened at `dbPath` gets its table, is
        seeded from `content` when it is empty and the path ends in `.csv`,
        and is cached. */
    method LoadCsvToBloom(dbPath: string, db: Database, content: string) returns (conn: Database)
      requires Valid() && db.Valid()
      modifies this, db
      ensures Valid() && conn == connection && conn.Valid() && conn.tableExists
      ensures old(connection) != null ==>
        conn == old(connection) && db.rows == old(db.rows) && db.tableExists == old(db.tableExists)
      ensures old(connection) == null ==>
        conn == db && db.rows == (if |old(db.rows)| == 0 && EndsWith(dbPath, ".csv")
                                  then ImportSpec(old(db.rows), content).0 else old(db.rows))
    {
      if connection != null {
        return connection;
      }
      db.CreateTableIfNotExists();
      if |db.rows| == 0 && EndsWith(dbPath, ".csv") {
        var _ := ImportCsvToDb(db, content);
      }
      connection := db;
      return db;
    }
  }
}

=== FILE: feed_updater.dfy ===
/** `static/update_database.py`: merging a feed of MD5 hashes into the
    `malware_hashes` table, inserting only hashes that are not stored yet
    and counting them. */
module FeedUpdater {
  import opened Base
  import opened Text
  import opened Store

  /** Python `str.isspace` on ASCII: JavaScript's set plus the four
      separator controls `\x1c`..`\x1f`. */
  predicate IsPySpace(c: char) {
    IsSpace(c) || (28 as char <= c <= 31 as char)
  }

  /** Drops leading whitespace, and only whitespace. */
  function StripStart(s: string): (r: string)
    ensures |r| <= |s| && r == s[|s| - |r|..]
    ensures r == "" || !IsPySpace(r[0])
    ensures forall k :: 0 <= k < |s| - |r| ==> IsPySpace(s[k])
  {
    if |s| > 0 && IsPySpace(s[0]) then StripStart(s[1..]) else s
  }

  /** Drops trailing whitespace, and only whitespace. */
  function StripEnd(s: string): (r: string)
    ensures |r| <= |s| && r == s[..|r|]
    ensures r == "" || !IsPySpace(r[|r| - 1])
    ensures forall k :: |r| <= k < |s| ==> IsPySpace(s[k])
  {
    if |s| > 0 && IsPySpace(s[|s| - 1]) then StripEnd(s[..|s| - 1]) else s
  }

  /** `str.strip()`. */
  function Strip(s: string): (r: string)
    ensures |r| <= |s|
    ensures r == "" || (!IsPySpace(r[0]) && !IsPySpace(r[|r| - 1]))
  {
    StripStart(StripEnd(s))
  }

  /** `strip()` removes whitespace and nothing else: the result is the part
      of `s` from offset `a` on, with only whitespace before and after it. */
  lemma StripDropsOnlySpace(s: string)
    ensures var r := Strip(s); var a := |StripEnd(s)| - |r|;
      && 0 <= a && a + |r| <= |s| && r == s[a..a + |r|]
      && (forall k :: 0 <= k < a ==> IsPySpace(s[k]))
      && (forall k :: a + |r| <= k < |s| ==> IsPySpace(s[k]))
  {
    var e := StripEnd(s);
    var r := StripStart(e);
    var a := |e| - |r|;
    forall k | 0 <= k < a ensures IsPySpace(s[k]) {
      assert s[k] == e[k];
    }
  }

  /** `[line.strip() for line in f if not line.startswith('#') and line.strip()]`,
      over the lines of the file, line breaks included. */
  function FeedHashes(lines: seq<string>): (hs: seq<string>)
    ensures |hs| <= |lines|
  {
    if |lines| == 0 then []
    else
      var l := lines[|lines| - 1];
      FeedHashes(lines[..|lines| - 1]) + (if !StartsWith(l, "#") && Strip(l) != "" then [Strip(l)] else [])
  }

  /** Line `l` yields the feed entry `h`. */
  predicate Yields(l: string, h: string) {
    !StartsWith(l, "#") && Strip(l) != "" && Strip(l) == h
  }

  /** The feed entries are exactly the stripped non-comment, non-blank lines. */
  lemma FeedHashesMembers(lines: seq<string>, h: string)
    ensures h in FeedHashes(lines) <==> exists i :: 0 <= i < |lines| && Yields(lines[i], h)
  {
    if h in FeedHashes(lines) {
      var i := FeedHashesWitness(lines, h);
    }
    if exists i :: 0 <= i < |lines| && Yields(lines[i], h) {
      var i :| 0 <= i < |lines| && Yields(lines[i], h);
      FeedHashesHas(lines, i);
    }
  }

  lemma {:induction false} FeedHashesWitness(lines: seq<string>, h: string) returns (i: nat)
    requires h in FeedHashes(lines)
    ensures i < |lines| && Yields(lines[i], h)
  {
    var init := lines[..|lines| - 1];
    if h in FeedHashes(init) {
      i := FeedHashesWitness(init, h);
      assert lines[i] == init[i];
    } else {
      i := |lines| - 1;
    }
  }

  lemma {:induction false} FeedHashesHas(lines: seq<string>, i: nat)
    requires i < |lines| && !StartsWith(lines[i], "#") && Strip(lines[i]) != ""
    ensures Strip(lines[i]) in FeedHashes(lines)
  {
    if i < |lines| - 1 {
      var init := lines[..|lines| - 1];
      assert init[i] == lines[i];
      FeedHashesHas(init, i);
    }
  }

  const HexDigits := "0123456789abcdefABCDEF"

  /** `len(h) == 32 and all(c in '0123456789abcdefABCDEF' for c in h)`. */
  predicate IsMd5(h: string) {
    |h| == 32 && forall i :: 0 <= i < |h| ==> h[i] in HexDigits
  }

  const Label := "MalwareBazaar_Recent"

  /** The loop over the feed: an invalid entry is skipped, a stored hash is
      left alone, a new one is inserted with the label and the time `clock(n)`
      of the n-th insertion. Returns the table and `new_hashes_count`. */
  function Merge(t: Table, hs: seq<string>, clock: nat -> string): (Table, nat) {
    if |hs| == 0 then (t, 0)
    else MergeOne(Merge(t, hs[..|hs| - 1], clock), hs[|hs| - 1], clock)
  }

  function MergeOne(acc: (Table, nat), h: string, clock: nat -> string): (Table, nat) {
    if IsMd5(h) && h !in acc.0 then (acc.0[h := Row(clock(acc.1), Label)], acc.1 + 1) else acc
  }

  /** The valid hashes of the feed. */
  function ValidSet(hs: seq<string>): set<string> {
    if |hs| == 0 then {}
    else ValidSet(hs[..|hs| - 1]) + (if IsMd5(hs[|hs| - 1]) then {hs[|hs| - 1]} else {})
  }

  /** `ValidSet` holds exactly the feed entries that pass the MD5 check. */
  lemma {:induction false} ValidSetMembers(hs: seq<string>, x: string)
    ensures x in ValidSet(hs) <==> x in hs && IsMd5(x)
  {
    if |hs| > 0 {
      var init := hs[..|hs| - 1];
      ValidSetMembers(init, x);
      assert hs == init + [hs[|hs| - 1]];
    }
  }

  /** Stored rows are never modified, the new keys are exactly the valid
      feed hashes, and each new row carries the label. */
  lemma {:induction false} MergeKeeps(t: Table, hs: seq<string>, clock: nat -> string)
    ensures var t' := Merge(t, hs, clock).0;
      && (forall k :: k in t ==> k in t' && t'[k] == t[k])
      && t'.Keys == t.Keys + ValidSet(hs)
      && (forall k :: k in t' && k !in t ==> t'[k].signature == Label)
  {
    if |hs| > 0 {
      var init := hs[..|hs| - 1];
      MergeKeeps(t, init, clock);
      ValidSetSnoc(init, hs[|hs| - 1]);
      assert hs == init + [hs[|hs| - 1]];
    }
  }

  lemma ValidSetSnoc(hs: seq<string>, h: string)
    ensures ValidSet(hs + [h]) == ValidSet(hs) + (if IsMd5(h) then {h} else {})
  {
    assert (hs + [h])[..|hs|] == hs;
  }

  /** `new_hashes_count` is the number of distinct valid hashes that were
      absent: a duplicate within the feed is counted once. */
  lemma {:induction false} MergeCount(t: Table, hs: seq<string>, clock: nat -> string)
    ensures Merge(t, hs, clock).1 == |ValidSet(hs) - t.Keys|
  {
    if |hs| > 0 {
      var init := hs[..|hs| - 1];
      MergeCount(t, init, clock);
      MergeKeeps(t, init, clock);
      MergeCountStep(Merge(t, init, clock), t.Keys, ValidSet(init), hs[|hs| - 1], clock);
    }
  }

  /** One step of `MergeCount`: a hash is counted exactly when it is valid
      and not yet among the keys, which are the old keys and the valid
      hashes seen so far. */
  lemma MergeCountStep(acc: (Table, nat), keys: set<string>, seen: set<string>, h: string, clock: nat -> string)
    requires acc.0.Keys == keys + seen && acc.1 == |seen - keys|
    ensures MergeOne(acc, h, clock).1 == |(seen + (if IsMd5(h) then {h} else {})) - keys|
  {
    if IsMd5(h) && h !in acc.0 {
      assert (seen + {h}) - keys == (seen - keys) + {h};
    } else if IsMd5(h) {
      assert (seen + {h}) - keys == seen - keys;
    }
  }

  /** Running the same feed again adds nothing. */
  lemma {:induction false} MergeIdempotent(t: Table, hs: seq<string>, clock: nat -> string, clock': nat -> string)
    requires ValidSet(hs) <= t.Keys
    ensures Merge(t, hs, clock') == (t, 0)
  {
    if |hs| > 0 {
      var init := hs[..|hs| - 1];
      MergeIdempotent(t, init, clock, clock');
    }
  }

  lemma MergeTwice(t: Table, hs: seq<string>, clock: nat -> string, clock': nat -> string)
    ensures var t' := Merge(t, hs, clock).0;
      Merge(t', hs, clock') == (t', 0)
  {
    MergeKeeps(t, hs, clock);
    MergeIdempotent(Merge(t, hs, clock).0, hs, clock, clock');
  }

  /** How the script ends. */
  datatype UpdateOutcome =
    | FeedUnreadable        // "Error: Feed file not found ...", exit status 1
    | NoHashes              // "No valid hashes found in the feed file.", exit status 0
    | Added(count: nat)     // "Added <count> new malware definitions."

  /** `update_database(db_path, feed_path)`; `feed` is the feed file's lines,
      `None` when it cannot be read. Each insert is committed on its own. */
  method UpdateDatabase(db: Database, feed: Option<seq<string>>, clock: nat -> string)
    returns (out: UpdateOutcome)
    requires db.Valid()
    modifies db
    ensures db.Valid()
    ensures out.FeedUnreadable? <==> feed.None?
    ensures out.NoHashes? <==> feed.Some? && FeedHashes(feed.value) == []
    ensures !out.Added? ==> db.rows == old(db.rows) && db.tableExists == old(db.tableExists)
    ensures out.Added? ==>
      db.tableExists && (db.rows, out.count) == Merge(old(db.rows), FeedHashes(feed.value), clock)
  {
    if feed.None? {
      return FeedUnreadable;
    }
    var hs := FeedHashes(feed.value);
    if |hs| == 0 {
      return NoHashes;
    }
    db.CreateTableIfNotExists();
    ghost var t0 := db.rows;
    var count := 0;
    for i := 0 to |hs|
      invariant db.Valid() && db.tableExists
      invariant db.rows == Merge(t0, hs[..i], clock).0
      invariant count == Merge(t0, hs[..i], clock).1
    {
      assert hs[..i + 1][..i] == hs[..i];
      var h := hs[i];
      if IsMd5(h) {
        var exists_ := db.Contains(h);
        if !exists_ {
          var ok := db.Insert(h, Row(clock(count), Label));
          count := count + 1;
        }
      }
    }
    assert hs[..|hs|] == hs;
    return Added(count);
  }
}

=== FILE: files.dfy ===
/** The file system as the scanners see it: a map from path to contents for
    reading, and a directory tree (in `readdir` order) for enumeration.
    The MD5 digest and the external YARA process are oracles. */
module Files {
  import opened Base
  import opened Text

  newtype byte = x: int | 0 <= x < 256
  type Bytes = seq<byte>
  type Path = string

  /** `path.join(dir, name)` for a directory and one entry name: a `.` or
      empty directory is dropped and a trailing `/` is not doubled. */
  function JoinPath(dir: Path, name: string): Path {
    if dir == "" || dir == "." then name
    else if dir[|dir| - 1] == '/' then dir + name
    else dir + "/" + name
  }

  /** `path.basename`: the part after the last `/`. The paths it is given
      are those of files, which never end in `/`; for a path that does,
      Node would drop the trailing `/` first, and this gives "". */
  function Basename(p: Path): string {
    if |p| == 0 || p[|p| - 1] == '/' then "" else Basename(p[..|p| - 1]) + [p[|p| - 1]]
  }

  /** The base name is the longest suffix without a `/`: it has none, and
      it is either the whole path or preceded by a `/`. */
  lemma {:induction false} BasenameIsLastSegment(p: Path)
    ensures var r := Basename(p);
      && '/' !in r
      && |r| <= |p| && r == p[|p| - |r|..]
      && (|r| < |p| ==> p[|p| - |r| - 1] == '/')
  {
    if |p| > 0 && p[|p| - 1] != '/' {
      var init := p[..|p| - 1];
      BasenameIsLastSegment(init);
      var r0 := Basename(init);
      assert Basename(p) == r0 + [p[|p| - 1]];
      assert p[|p| - |r0| - 1..] == init[|init| - |r0|..] + [p[|p| - 1]];
    }
  }

  /** The name joined onto a directory is its base name again. */
  lemma {:induction false} BasenameOfJoin(dir: Path, name: string)
    requires '/' !in name
    ensures Basename(JoinPath(dir, name)) == name
    decreases |name|
  {
    if |name| > 0 {
      var p := JoinPath(dir, name);
      var init := name[..|name| - 1];
      assert p[..|p| - 1] == JoinPath(dir, init);
      assert name[|name| - 1] in name;
      BasenameOfJoin(dir, init);
      assert init + [name[|name| - 1]] == name;
    }
  }

  /** What `readdirSync` yields for a directory: its entries in order, or an error. */
  datatype Listing = Unlistable | Listed(entries: seq<Node>)

  /** One directory entry as `statSync` sees it. */
  datatype Node =
    | FileEntry(name: string)
    | DirEntry(name: string, listing: Listing)
    | Unstatable(name: string)

  const ReaddirFailed := "readdirSync failed"
  const StatFailed := "statSync failed"

  /** `getAllFiles`: every non-directory entry under `dir`, depth-first in
      `readdir` order; any failing `readdirSync` or `statSync` throws. */
  function AllFiles(dir: Path, l: Listing): Result<seq<Path>>
    decreases l
  {
    match l
    case Unlistable => Failure(ReaddirFailed)
    case Listed(es) => EntriesFiles(dir, es)
  }

  function EntriesFiles(dir: Path, es: seq<Node>): Result<seq<Path>>
    decreases es
  {
    if |es| == 0 then Success([])
    else
      match EntriesFiles(dir, es[..|es| - 1])
      case Failure(e) => Failure(e)
      case Success(front) =>
        match EntryFiles(dir, es[|es| - 1])
        case Failure(e) => Failure(e)
        case Success(back) => Success(front + back)
  }

  function EntryFiles(dir: Path, n: Node): Result<seq<Path>>
    decreases n
  {
    match n
    case FileEntry(name) => Success([JoinPath(dir, name)])
    case DirEntry(name, sub) => AllFiles(JoinPath(dir, name), sub)
    case Unstatable(_) => Failure(StatFailed)
  }

  /** The recursive walk of the source: a loop over the entries that
      concatenates what each sub-directory yields. */
  method GetAllFiles(dir: Path, l: Listing) returns (r: Result<seq<Path>>)
    ensures r == AllFiles(dir, l)
    decreases l
  {
    if l.Unlistable? {
      return Failure(ReaddirFailed);
    }
    var es := l.entries;
    var results: seq<Path> := [];
    for i := 0 to |es|
      invariant EntriesFiles(dir, es[..i]) == Success(results)
    {
      assert es[..i + 1][..i] == es[..i];
      var e := es[i];
      match e
      case FileEntry(name) =>
        results := results + [JoinPath(dir, name)];
      case DirEntry(name, sub) =>
        var rs := GetAllFiles(JoinPath(dir, name), sub);
        if rs.Failure? {
          EntriesFailurePersists(dir, es, i + 1);
          return rs;
        }
        results := results + rs.value;
      case Unstatable(_) =>
        EntriesFailurePersists(dir, es, i + 1);
        return Failure(StatFailed);
    }
    assert es[..|es|] == es;
    return Success(results);
  }

  /** Once a prefix of the entries throws, the rest is never looked at. */
  lemma {:induction false} EntriesFailurePersists(dir: Path, es: seq<Node>, k: nat)
    requires k <= |es| && EntriesFiles(dir, es[..k]).Failure?
    ensures EntriesFiles(dir, es) == EntriesFiles(dir, es[..k])
    decreases |es| - k
  {
    if k < |es| {
      assert es[..k + 1][..k] == es[..k];
      EntriesFailurePersists(dir, es, k + 1);
    } else {
      assert es[..k] == es;
    }
  }

  /** An entry somewhere in the tree makes enumeration throw. */
  predicate Broken(l: Listing)
    decreases l
  {
    match l
    case Unlistable => true
    case Listed(es) => exists i :: 0 <= i < |es| && BrokenNode(es[i])
  }

  predicate BrokenNode(n: Node)
    decreases n
  {
    match n
    case FileEntry(_) => false
    case DirEntry(_, sub) => Broken(sub)
    case Unstatable(_) => true
  }

  /** Path `p` names a non-directory entry reachable from `dir`. */
  predicate Reaches(dir: Path, l: Listing, p: Path)
    decreases l
  {
    match l
    case Unlistable => false
    case Listed(es) => exists i :: 0 <= i < |es| && NodeReaches(dir, es[i], p)
  }

  predicate NodeReaches(dir: Path, n: Node, p: Path)
    decreases n
  {
    match n
    case FileEntry(name) => p == JoinPath(dir, name)
    case DirEntry(name, sub) => Reaches(JoinPath(dir, name), sub, p)
    case Unstatable(_) => false
  }

  /** Enumeration throws exactly when some entry of the tree cannot be read. */
  lemma {:induction false} AllFilesFailsIffBroken(dir: Path, l: Listing)
    ensures AllFiles(dir, l).Failure? <==> Broken(l)
    decreases l
  {
    if l.Listed? {
      EntriesFailsIffBroken(dir, l.entries);
    }
  }

  lemma {:induction false} EntriesFailsIffBroken(dir: Path, es: seq<Node>)
    ensures EntriesFiles(dir, es).Failure? <==> exists i :: 0 <= i < |es| && BrokenNode(es[i])
    decreases es
  {
    if |es| > 0 {
      var init := es[..|es| - 1];
      var last := es[|es| - 1];
      EntriesFailsIffBroken(dir, init);
      match last {
        case FileEntry(_) =>
        case DirEntry(name, sub) => AllFilesFailsIffBroken(JoinPath(dir, name), sub);
        case Unstatable(_) =>
      }
      if exists i :: 0 <= i < |init| && BrokenNode(init[i]) {
        var i :| 0 <= i < |init| && BrokenNode(init[i]);
        assert es[i] == init[i];
      }
      if exists i :: 0 <= i < |es| && BrokenNode(es[i]) {
        var i :| 0 <= i < |es| && BrokenNode(es[i]);
        if i < |init| {
          assert init[i] == es[i];
        }
      }
    }
  }

  /** A successful enumeration lists exactly the reachable non-directory entries. */
  lemma {:induction false} AllFilesMembers(dir: Path, l: Listing, p: Path)
    requires AllFiles(dir, l).Success?
    ensures p in AllFiles(dir, l).value <==> Reaches(dir, l, p)
    decreases l
  {
    EntriesMembers(dir, l.entries, p);
  }

  lemma {:induction false} EntriesMembers(dir: Path, es: seq<Node>, p: Path)
    requires EntriesFiles(dir, es).Success?
    ensures p in EntriesFiles(dir, es).value <==> exists i :: 0 <= i < |es| && NodeReaches(dir, es[i], p)
    decreases es
  {
    if |es| > 0 {
      var init := es[..|es| - 1];
      var last := es[|es| - 1];
      EntriesMembers(dir, init, p);
      match last {
        case FileEntry(_) =>
        case DirEntry(name, sub) => AllFilesMembers(JoinPath(dir, name), sub, p);
        case Unstatable(_) =>
      }
      if exists i :: 0 <= i < |init| && NodeReaches(dir, init[i], p) {
        var i :| 0 <= i < |init| && NodeReaches(dir, init[i], p);
        assert es[i] == init[i];
      }
      if exists i :: 0 <= i < |es| && NodeReaches(dir, es[i], p) {
        var i :| 0 <= i < |es| && NodeReaches(dir, es[i], p);
        if i < |init| {
          assert init[i] == es[i];
        }
      }
    }
  }

  /** `computeHashes`: the lower-cased MD5 hex digest of the file, or `null`
      when the file cannot be read. */
  function ComputeHash(files: map<Path, Bytes>, md5: Bytes -> string, p: Path): (h: Option<string>)
    ensures h.Some? <==> p in files
  {
    if p in files then Some(Lower(md5(files[p]))) else None
  }

  /** What `spawnSync` reports for the YARA command: exit status and output. */
  datatype SpawnResult = SpawnResult(status: int, stdout: string)

  /** `runYaraScan`: the trimmed output when the engine is enabled, exits
      with status 0 and prints something; otherwise `null`. */
  function RunYara(enabled: bool, run: SpawnResult): (r: Option<string>)
    ensures r.Some? <==> enabled && run.status == 0 && Trim(run.stdout) != ""
    ensures r.Some? ==> r.value == Trim(run.stdout)
  {
    if enabled && run.status == 0 && Trim(run.stdout) != "" then Some(Trim(run.stdout)) else None
  }
}

=== FILE: host.dfy ===
/** The mutable side of `scanner/scanner.cjs`: the files the scanner owns on
    disk (`Host`), the progress record the desktop host reads while a folder
    is scanned (`ScanStatus`, `global.scanStatus`), and the imperative
    `scanFile` and `scanFolder`, each proved against the classifier's
    specification. */
module Host {
  import opened Base
  import opened Text
  import opened Files
  import opened Store
  import opened Ledger
  import opened Classifier

  /** `global.scanStatus`. `progressTrace` records every value written to
      `progress`, in order. */
  class ScanStatus {
    var scanType: string
    var progress: nat
    var currentFile: Path
    var status: string
    ghost var progressTrace: seq<nat>

    constructor (scanType: string)
      ensures this.scanType == scanType && progress == 0
      ensures currentFile == "" && status == "scanning" && progressTrace == []
    {
      this.scanType := scanType;
      progress := 0;
      currentFile := "";
      status := "scanning";
      progressTrace := [];
    }

    /** `currentFile = filePath` and `progress = count` after one file. */
    method Publish(file: Path, count: nat)
      modifies this
      ensures currentFile == file && progress == count && progressTrace == old(progressTrace) + [count]
      ensures scanType == old(scanType) && status == old(status)
    {
      currentFile := file;
      progress := count;
      progressTrace := progressTrace + [count];
    }
  }

  /** The `scan_summary` counters and the three result lists of `scanFolder`. */
  datatype Summary = Summary(primaryBloom: nat, yara: nat, whitelisted: nat, newWhitelisted: nat,
                             matchedFiles: seq<ScanResult>, whitelistedFiles: seq<ScanResult>,
                             newWhitelistedFiles: seq<ScanResult>)

  const EmptySummary := Summary(0, 0, 0, 0, [], [], [])

  /** How one `scanFile` result is counted: whitelisted, newly whitelisted,
      or matched under its type; hash errors and misses are not counted. */
  function Count(s: Summary, r: ScanResult): Summary {
    if r.Whitelisted? then
      s.(whitelisted := s.whitelisted + 1, whitelistedFiles := s.whitelistedFiles + [r])
    else if r.Learned? then
      s.(newWhitelisted := s.newWhitelisted + 1, newWhitelistedFiles := s.newWhitelistedFiles + [r])
    else if r.YaraHit? then
      s.(yara := s.yara + 1, matchedFiles := s.matchedFiles + [r])
    else if r.Matched() then
      s.(primaryBloom := s.primaryBloom + 1, matchedFiles := s.matchedFiles + [r])
    else
      s
  }

  /** The summary of a sequence of results, counted in order. */
  function Tally(rs: seq<ScanResult>): Summary {
    if |rs| == 0 then EmptySummary else Count(Tally(rs[..|rs| - 1]), rs[|rs| - 1])
  }

  /** The counters agree with the lists, matches split into the two types,
      and no result is counted twice. */
  lemma {:induction false} TallyCounts(rs: seq<ScanResult>)
    ensures var s := Tally(rs);
      && |s.matchedFiles| == s.primaryBloom + s.yara
      && s.whitelisted == |s.whitelistedFiles|
      && s.newWhitelisted == |s.newWhitelistedFiles|
      && s.whitelisted + s.newWhitelisted + |s.matchedFiles| <= |rs|
  {
    if |rs| > 0 {
      TallyCounts(rs[..|rs| - 1]);
    }
  }

  /** Each list holds exactly the results of its kind. */
  lemma {:induction false} TallyMembers(rs: seq<ScanResult>, x: ScanResult)
    ensures x in Tally(rs).matchedFiles <==> x in rs && x.Matched()
    ensures x in Tally(rs).whitelistedFiles <==> x in rs && x.Whitelisted?
    ensures x in Tally(rs).newWhitelistedFiles <==> x in rs && x.Learned?
  {
    if |rs| > 0 {
      var init := rs[..|rs| - 1];
      TallyMembers(init, x);
      assert rs == init + [rs[|rs| - 1]];
    }
  }

  /** Scanning files one after another, each on the disk the previous one left. */
  function ScanAll(d: Disk, env: Env, ctx: Ctx, ps: seq<Path>): (seq<ScanResult>, Disk) {
    if |ps| == 0 then ([], d)
    else
      var prev := ScanAll(d, env, ctx, ps[..|ps| - 1]);
      var next := ScanFileSpec(prev.1, env, ctx, ps[|ps| - 1]);
      (prev.0 + [next.0], next.1)
  }

  lemma ScanAllStep(d: Disk, env: Env, ctx: Ctx, ps: seq<Path>, i: nat)
    requires i < |ps|
    ensures var (rs, d1) := ScanAll(d, env, ctx, ps[..i]);
      ScanAll(d, env, ctx, ps[..i + 1]) ==
        (rs + [ScanFileSpec(d1, env, ctx, ps[i]).0], ScanFileSpec(d1, env, ctx, ps[i]).1)
  {
    assert ps[..i + 1][..i] == ps[..i];
  }

  lemma TallyStep(rs: seq<ScanResult>, r: ScanResult)
    ensures Tally(rs + [r]) == Count(Tally(rs), r)
  {
    assert (rs + [r])[..|rs|] == rs;
  }

  /** The number of results whose file went to quarantine. */
  function QuarantinedCount(rs: seq<ScanResult>): nat {
    if |rs| == 0 then 0
    else QuarantinedCount(rs[..|rs| - 1]) + (if rs[|rs| - 1].IsQuarantined() then 1 else 0)
  }

  /** A folder scan yields one result per file, never touches the scan log,
      and appends exactly one ledger record per quarantined file, keeping
      the records that were there. */
  lemma {:induction false} ScanAllEffects(d: Disk, env: Env, ctx: Ctx, ps: seq<Path>)
    ensures var (rs, d') := ScanAll(d, env, ctx, ps);
      && |rs| == |ps|
      && d'.logs == d.logs
      && |ReadLedger(d'.ledger)| == |ReadLedger(d.ledger)| + QuarantinedCount(rs)
      && ReadLedger(d'.ledger)[..|ReadLedger(d.ledger)|] == ReadLedger(d.ledger)
  {
    if |ps| > 0 {
      var init := ps[..|ps| - 1];
      ScanAllEffects(d, env, ctx, init);
      var (rs, d1) := ScanAll(d, env, ctx, init);
      ScanFileEffects(d1, env, ctx, ps[|ps| - 1]);
      var (r, d2) := ScanFileSpec(d1, env, ctx, ps[|ps| - 1]);
      assert (rs + [r])[..|rs|] == rs;
      var n := |ReadLedger(d.ledger)|;
      if r.IsQuarantined() {
        var l1 := ReadLedger(d1.ledger);
        var l2 := ReadLedger(d2.ledger);
        assert l2[..n] == l2[..|l1|][..n];
      }
    }
  }

  /** `[1, 2, ..., n]`: the values a loop of `n` steps writes to `progress`. */
  function Upto(n: nat): seq<nat> {
    if n == 0 then [] else Upto(n - 1) + [n]
  }

  /** What `scanFolder` ends with. */
  datatype Report = Report(totalFiles: nat, summary: Summary, totalMatches: nat)

  datatype FolderOutcome =
    | EnumerationFailed(error: string)   // getAllFiles threw
    | NoFiles                            // "No files found to scan."; resolves to undefined
    | LogUnwritable                      // logs.json missing or not a JSON list: throws after the scan
    | Completed(report: Report)

  /** The scanner's files on disk: everything `scanFile` and `scanFolder` read and write. */
  class Host {
    var files: map<Path, Bytes>
    var whitelist: Option<string>
    var ledger: LedgerFile
    var logs: Option<seq<LogEntry>>

    function Snapshot(): Disk
      reads this
    {
      Disk(files, whitelist, ledger, logs)
    }

    constructor (d: Disk)
      ensures Snapshot() == d
    {
      files := d.files;
      whitelist := d.whitelist;
      ledger := d.ledger;
      logs := d.logs;
    }

    /** `loadWhitelist`: one pass over the lines of the whitelist file. */
    method LoadWhitelist() returns (ws: set<string>)
      ensures ws == WhitelistSet(whitelist)
    {
      ws := {};
      if whitelist.Some? {
        var lines := Split(whitelist.value, '\n');
        for i := 0 to |lines|
          invariant ws == TrimmedSet(lines[..i])
        {
          assert lines[..i + 1][..i] == lines[..i];
          var hash := Trim(lines[i]);
          if hash != "" {
            ws := ws + {hash};
          }
        }
        assert lines[..|lines|] == lines;
      }
    }

    /** `computeHashes`. */
    method ComputeHashes(path: Path, md5: Bytes -> string) returns (h: Option<string>)
      ensures h == ComputeHash(files, md5, path)
    {
      if path in files {
        h := Some(Lower(md5(files[path])));
      } else {
        h := None;
      }
    }

    /** `addToWhitelist`. */
    method AddToWhitelist(h: string)
      modifies this
      ensures whitelist == AppendWhitelist(old(whitelist), h)
      ensures files == old(files) && ledger == old(ledger) && logs == old(logs)
    {
      whitelist := AppendWhitelist(whitelist, h);
    }

    /** `moveToQuarantine`: the new path, or `null` when the rename fails. */
    method MoveToQuarantine(path: Path, canRename: Path -> bool) returns (moved: Option<Path>)
      modifies this
      ensures moved.Some? <==> old(path in files && canRename(path))
      ensures moved.Some? ==> moved.value == QuarantinePath(path) && files == MoveFile(old(files), path, moved.value)
      ensures moved.None? ==> files == old(files)
      ensures whitelist == old(whitelist) && ledger == old(ledger) && logs == old(logs)
    {
      if path in files && canRename(path) {
        files := MoveFile(files, path, QuarantinePath(path));
        moved := Some(QuarantinePath(path));
      } else {
        moved := None;
      }
    }

    /** `updateQuarantineJson`. */
    method UpdateQuarantineJson(rec: Record)
      modifies this
      ensures ledger == AppendRecord(old(ledger), rec)
      ensures files == old(files) && whitelist == old(whitelist) && logs == old(logs)
    {
      ledger := AppendRecord(ledger, rec);
    }

    /** `scanFile`, step by step. */
    method ScanFile(env: Env, ctx: Ctx, path: Path) returns (r: ScanResult)
      modifies this
      ensures r == ScanFileSpec(old(Snapshot()), env, ctx, path).0
      ensures Snapshot() == ScanFileSpec(old(Snapshot()), env, ctx, path).1
    {
      var ws := LoadWhitelist();
      var hashes := ComputeHashes(path, env.md5);
      if hashes.None? {
        return HashError;
      }
      var h := hashes.value;
      if h in ws {
        return Whitelisted(h, path);
      }
      var dir := FamilyName(env.catalogue, h);
      var info := FindInfo(env.info, dir);
      if info.Some? {
        var moved := MoveToQuarantine(path, env.canRename);
        if moved.Some? {
          UpdateQuarantineJson(FamilyRecord(path, dir.value, h, info.value));
          return FamilyHit(h, dir.value, path, true);
        }
      }
      if ctx.db.Some? {
        var m := CheckHash(ctx.db.value, h);
        if m.Some? {
          var moved := MoveToQuarantine(path, env.canRename);
          if moved.Some? {
            UpdateQuarantineJson(StoreRecord(path, h, m.value));
          }
          return StoreHit(h, m.value.firstSeen, m.value.signature, path, moved.Some?);
        }
      }
      var y := RunYara(YaraEnabled(env), env.yara(ctx.rules, path));
      if y.Some? {
        var moved := MoveToQuarantine(path, env.canRename);
        if moved.Some? {
          UpdateQuarantineJson(YaraRecord(path, h, y.value));
        }
        return YaraHit(y.value, path, moved.Some?);
      }
      if ctx.db.None? {
        return NoVerdict;
      }
      AddToWhitelist(h);
      return Learned(h, path);
    }

    /** One turn of `scanFolder`'s loop: the `i`-th file scanned on the
        disk the earlier files left, its result counted, and `currentFile`
        and `progress` published. `d0` is the disk before the loop. */
    method ScanNext(status: ScanStatus, env: Env, ctx: Ctx, ps: seq<Path>, i: nat, ghost d0: Disk,
                    rs: seq<ScanResult>, summary: Summary)
      returns (rs': seq<ScanResult>, summary': Summary)
      requires i < |ps|
      requires rs == ScanAll(d0, env, ctx, ps[..i]).0 && Snapshot() == ScanAll(d0, env, ctx, ps[..i]).1
      requires summary == Tally(rs)
      modifies this, status
      ensures rs' == ScanAll(d0, env, ctx, ps[..i + 1]).0 && Snapshot() == ScanAll(d0, env, ctx, ps[..i + 1]).1
      ensures summary' == Tally(rs')
      ensures status.progress == i + 1 && status.currentFile == ps[i]
      ensures status.progressTrace == old(status.progressTrace) + [i + 1]
      ensures status.status == old(status.status) && status.scanType == old(status.scanType)
    {
      ScanAllStep(d0, env, ctx, ps, i);
      var r := ScanFile(env, ctx, ps[i]);
      TallyStep(rs, r);
      summary' := Count(summary, r);
      rs' := rs + [r];
      status.Publish(ps[i], i + 1);
    }

    /** The loop of `scanFolder`: each file scanned in order, its result
        counted, `currentFile` and `progress` published after it. */
    method ScanEach(status: ScanStatus, env: Env, ctx: Ctx, ps: seq<Path>)
      returns (rs: seq<ScanResult>, summary: Summary)
      requires |ps| > 0
      modifies this, status
      ensures rs == ScanAll(old(Snapshot()), env, ctx, ps).0 && Snapshot() == ScanAll(old(Snapshot()), env, ctx, ps).1
      ensures summary == Tally(rs)
      ensures status.progress == |ps| && status.currentFile == ps[|ps| - 1]
      ensures status.progressTrace == old(status.progressTrace) + Upto(|ps|)
      ensures status.status == old(status.status) && status.scanType == old(status.scanType)
    {
      ghost var d0 := Snapshot();
      summary := EmptySummary;
      rs := [];
      ghost var done := ScanAll(d0, env, ctx, []);
      for i := 0 to |ps|
        invariant done == ScanAll(d0, env, ctx, ps[..i])
        invariant rs == done.0 && Snapshot() == done.1
        invariant summary == Tally(rs)
        invariant i > 0 ==> status.progress == i && status.currentFile == ps[i - 1]
        invariant status.progressTrace == old(status.progressTrace) + Upto(i)
        invariant status.status == old(status.status) && status.scanType == old(status.scanType)
      {
        rs, summary := ScanNext(status, env, ctx, ps, i, d0, rs, summary);
        done := ScanAll(d0, env, ctx, ps[..i + 1]);
      }
      assert ps[..|ps|] == ps;
    }

    /** `scanFolder`: enumerate, scan each file in order while publishing
      progress, then append one entry to the scan log. `now` is what the
      clock (`Date.now()`) reads once the files are scanned. */
    method ScanFolder(status: ScanStatus, env: Env, ctx: Ctx, folder: Path, tree: Listing, now: nat)
      returns (out: FolderOutcome)
      modifies this, status
      ensures out.EnumerationFailed? <==> AllFiles(folder, tree).Failure?
      ensures out.NoFiles? <==> AllFiles(folder, tree) == Success([])
      ensures out.EnumerationFailed? || out.NoFiles? ==>
        && Snapshot() == old(Snapshot())
        && status.progress == old(status.progress) && status.currentFile == old(status.currentFile)
        && status.status == old(status.status) && status.progressTrace == old(status.progressTrace)
      ensures status.scanType == old(status.scanType)
      ensures AllFiles(folder, tree).Success? && AllFiles(folder, tree).value != [] ==>
        var ps := AllFiles(folder, tree).value;
        var (rs, d') := ScanAll(old(Snapshot()), env, ctx, ps);
        && status.progress == |ps| && status.currentFile == ps[|ps| - 1]
        && status.progressTrace == old(status.progressTrace) + Upto(|ps|)
        && (old(logs).None? ==>
              out == LogUnwritable && Snapshot() == d' && status.status == old(status.status))
        && (old(logs).Some? ==>
              && out == Completed(Report(|ps|, Tally(rs), Tally(rs).primaryBloom + Tally(rs).yara))
              && Snapshot() == d'.(logs := Some(old(logs).value +
                                      [LogEntry(old(status.scanType), |ps|, |Tally(rs).matchedFiles|, now, folder)]))
              && status.status == "completed")
    {
      var all := GetAllFiles(folder, tree);
      if all.Failure? {
        return EnumerationFailed(all.error);
      }
      var ps := all.value;
      if |ps| == 0 {
        return NoFiles;
      }
      ghost var d0 := Snapshot();
      var rs, summary := ScanEach(status, env, ctx, ps);
      ScanAllEffects(d0, env, ctx, ps);
      if logs.None? {
        return LogUnwritable;
      }
      TallyCounts(rs);
      logs := Some(logs.value + [LogEntry(status.scanType, |ps|, |summary.matchedFiles|, now, folder)]);
      status.status := "completed";
      return Completed(Report(|ps|, summary, summary.primaryBloom + summary.yara));
    }
  }
}

=== FILE: ledger.dfy ===
/** The quarantine ledger `data/quarantine.json`: an ordered JSON list of
    records, one per file moved into quarantine. */
module Ledger {
  import opened Base
  import opened Files

  /** The type-specific part of a record. A family record carries the
      catalogue's metadata fields that are present (absent and `null`
      fields are filtered out); a database or YARA record carries
      `yaraRule` and `severity`. JSON values are kept as their text. */
  datatype Detail =
    | FamilyDetail(description: Option<string>, cveScores: Option<string>, history: Option<string>,
                   origin: Option<string>, authorship: Option<string>, affectedNations: Option<string>,
                   detectionTechniques: Option<string>)
    | RuleDetail(yaraRule: string, severity: string)

  /** One ledger entry: `name` (base name), `type`, `oldPath`, `hash` and the detail. */
  datatype Record = Record(name: string, kind: string, oldPath: Path, hash: string, detail: Detail)

  /** The ledger file as `updateQuarantineJson` finds it. */
  datatype LedgerFile =
    | Missing                          // no such file
    | Blank                            // only whitespace
    | Garbled                          // `JSON.parse` throws
    | Entries(records: seq<Record>)    // a JSON list of records

  /** The list the file is read as: anything but a parsed list reads as `[]`. */
  function ReadLedger(f: LedgerFile): (list: seq<Record>)
    ensures !f.Entries? ==> list == []
  {
    if f.Entries? then f.records else []
  }

  /** `updateQuarantineJson`'s effect: the list read, with `rec` pushed, written back. */
  function AppendRecord(f: LedgerFile, rec: Record): (g: LedgerFile)
    ensures g.Entries?
    ensures |g.records| == |ReadLedger(f)| + 1
    ensures g.records[..|ReadLedger(f)|] == ReadLedger(f)
    ensures g.records[|g.records| - 1] == rec
  {
    Entries(ReadLedger(f) + [rec])
  }
}

=== FILE: store.dfy ===
/** The SQLite table `malware_hashes (md5_hash TEXT PRIMARY KEY,
    first_seen_utc TEXT, signature TEXT)` that the CSV import, the
    definitions updater and the scanner's database tier share. */
module Store {

  /** The two non-key columns of one row. */
  datatype Row = Row(firstSeen: string, signature: string)

  /** The table's rows, keyed by `md5_hash`. */
  type Table = map<string, Row>

  /** `INSERT OR IGNORE`: a present key keeps its row. */
  function InsertOrIgnore(t: Table, key: string, row: Row): (t': Table)
    ensures t'.Keys == t.Keys + {key}
    ensures key in t ==> t'[key] == t[key]
    ensures key !in t ==> t'[key] == row
    ensures forall k :: k in t ==> t'[k] == t[k]
  {
    if key in t then t else t[key := row]
  }

  /** The database file as a connection sees it: whether the table exists
      and what it holds. */
  class Database {
    var tableExists: bool
    var rows: Table

    ghost predicate Valid()
      reads this
    {
      !tableExists ==> rows == map[]
    }

    constructor (tableExists: bool, rows: Table)
      requires !tableExists ==> rows == map[]
      ensures Valid()
      ensures this.tableExists == tableExists && this.rows == rows
    {
      this.tableExists := tableExists;
      this.rows := rows;
    }

    /** `CREATE TABLE IF NOT EXISTS malware_hashes (...)`. */
    method CreateTableIfNotExists()
      requires Valid()
      modifies this
      ensures Valid() && tableExists
      ensures rows == old(rows)
    {
      tableExists := true;
    }

    /** `SELECT 1 FROM malware_hashes WHERE md5_hash = ?`. */
    method Contains(key: string) returns (found: bool)
      requires tableExists
      ensures found <==> key in rows
    {
      found := key in rows;
    }

    /** `INSERT OR IGNORE INTO malware_hashes VALUES (?, ?, ?)`. */
    method InsertIgnoring(key: string, row: Row)
      requires Valid() && tableExists
      modifies this
      ensures Valid() && tableExists
      ensures rows == InsertOrIgnore(old(rows), key, row)
    {
      rows := InsertOrIgnore(rows, key, row);
    }

    /** Plain `INSERT`: a duplicate primary key is refused (`IntegrityError`). */
    method Insert(key: string, row: Row) returns (ok: bool)
      requires Valid() && tableExists
      modifies this
      ensures Valid() && tableExists
      ensures ok <==> key !in old(rows)
      ensures rows == if ok then old(rows)[key := row] else old(rows)
    {
      ok := key !in rows;
      if ok {
        rows := rows[key := row];
      }
    }
  }
}

=== FILE: text.dfy ===
/** String helpers with the semantics of the JavaScript and Python calls the
    scanner uses: `trim`/`strip`, `split`, the quote-stripping regular
    expressions, `toLowerCase`, `indexOf`, `startsWith`/`endsWith`. */
module Text {

  /** Whitespace removed by JavaScript `trim()` and Python `strip()`
      (the ASCII part of both sets). */
  predicate IsSpace(c: char) {
    c == ' ' || c == '\t' || c == '\n' || c == '\r' || c == 11 as char || c == 12 as char
  }

  /** Drops leading whitespace; the result is a suffix of `s`, and only
      whitespace was dropped. */
  function TrimStart(s: string): (r: string)
    ensures |r| <= |s| && r == s[|s| - |r|..]
    ensures r == "" || !IsSpace(r[0])
    ensures forall k :: 0 <= k < |s| - |r| ==> IsSpace(s[k])
  {
    if |s| > 0 && IsSpace(s[0]) then TrimStart(s[1..]) else s
  }

  /** Drops trailing whitespace; the result is a prefix of `s`, and only
      whitespace was dropped. */
  function TrimEnd(s: string): (r: string)
    ensures |r| <= |s| && r == s[..|r|]
    ensures r == "" || !IsSpace(r[|r| - 1])
    ensures forall k :: |r| <= k < |s| ==> IsSpace(s[k])
  {
    if |s| > 0 && IsSpace(s[|s| - 1]) then TrimEnd(s[..|s| - 1]) else s
  }

  /** JavaScript `String.prototype.trim`. */
  function Trim(s: string): (r: string)
    ensures |r| <= |s|
    ensures r == "" || (!IsSpace(r[0]) && !IsSpace(r[|r| - 1]))
  {
    TrimStart(TrimEnd(s))
  }

  /** `trim()` removes whitespace and nothing else: the result is the part of
      `s` from offset `a` on, with only whitespace before and after it. */
  lemma TrimDropsOnlySpace(s: string)
    ensures var r := Trim(s); var a := |TrimEnd(s)| - |r|;
      && 0 <= a && a + |r| <= |s| && r == s[a..a + |r|]
      && (forall k :: 0 <= k < a ==> IsSpace(s[k]))
      && (forall k :: a + |r| <= k < |s| ==> IsSpace(s[k]))
  {
    var e := TrimEnd(s);
    var r := TrimStart(e);
    var a := |e| - |r|;
    forall k | 0 <= k < a ensures IsSpace(s[k]) {
      assert s[k] == e[k];
    }
  }

  /** `s.split(sep)` for a one-character separator: the pieces between
      separators, in order, always at least one. */
  function Split(s: string, sep: char): (r: seq<string>)
    ensures |r| >= 1
  {
    if |s| == 0 then [""]
    else if s[0] == sep then [""] + Split(s[1..], sep)
    else
      var rest := Split(s[1..], sep);
      [[s[0]] + rest[0]] + rest[1..]
  }

  /** The inverse of `Split`: the pieces glued back with the separator. */
  function Join(parts: seq<string>, sep: char): string
    requires |parts| >= 1
  {
    if |parts| == 1 then parts[0] else parts[0] + [sep] + Join(parts[1..], sep)
  }

  /** Splitting loses nothing: joining the pieces gives the string back. */
  lemma {:induction false} JoinSplit(s: string, sep: char)
    ensures Join(Split(s, sep), sep) == s
  {
    if |s| == 0 {
    } else if s[0] == sep {
      JoinSplit(s[1..], sep);
      assert Split(s, sep)[1..] == Split(s[1..], sep);
    } else {
      var rest := Split(s[1..], sep);
      JoinSplit(s[1..], sep);
      if |rest| == 1 {
      } else {
        assert Split(s, sep)[1..] == rest[1..];
        assert Join(rest, sep) == rest[0] + [sep] + Join(rest[1..], sep);
      }
    }
  }

  /** Splitting at a separator splits the two sides independently. */
  lemma {:induction false} SplitAppend(a: string, sep: char, b: string)
    ensures Split(a + [sep] + b, sep) == Split(a, sep) + Split(b, sep)
  {
    if |a| == 0 {
      assert a + [sep] + b == [sep] + b;
      SplitCons(sep, b, sep);
    } else {
      assert a + [sep] + b == [a[0]] + (a[1..] + [sep] + b);
      assert a == [a[0]] + a[1..];
      SplitAppend(a[1..], sep, b);
      SplitAppendStep(a[0], a[1..], sep, b);
    }
  }

  /** The inductive step of `SplitAppend`: one more leading character. */
  lemma SplitAppendStep(c: char, a: string, sep: char, b: string)
    requires Split(a + [sep] + b, sep) == Split(a, sep) + Split(b, sep)
    ensures Split([c] + (a + [sep] + b), sep) == Split([c] + a, sep) + Split(b, sep)
  {
    SplitCons(c, a + [sep] + b, sep);
    SplitCons(c, a, sep);
    ConsPieces(c, sep, Split(a + [sep] + b, sep), Split(a, sep), Split(b, sep),
               Split([c] + (a + [sep] + b), sep), Split([c] + a, sep));
  }

  /** The pieces after one leading character, as `SplitCons` gives them,
      commute with appending more pieces. */
  lemma ConsPieces(c: char, sep: char, w: seq<string>, y: seq<string>, z: seq<string>,
                   lhs: seq<string>, rhs: seq<string>)
    requires |y| >= 1 && w == y + z
    requires lhs == if c == sep then [""] + w else [[c] + w[0]] + w[1..]
    requires rhs == if c == sep then [""] + y else [[c] + y[0]] + y[1..]
    ensures lhs == rhs + z
  {
    if c == sep {
      assert [""] + (y + z) == ([""] + y) + z;
    } else {
      assert w[0] == y[0];
      assert w[1..] == y[1..] + z;
    }
  }

  /** How `Split` treats the first character. */
  lemma SplitCons(c: char, s: string, sep: char)
    ensures Split([c] + s, sep) ==
      if c == sep then [""] + Split(s, sep) else [[c] + Split(s, sep)[0]] + Split(s, sep)[1..]
  {
    assert ([c] + s)[1..] == s;
  }

  /** A piece of `split` never holds the separator, and holds only
      characters of the string split. */
  lemma {:induction false} SplitPieceIsPart(s: string, sep: char, i: nat)
    requires i < |Split(s, sep)|
    ensures forall c :: c in Split(s, sep)[i] ==> c in s && c != sep
  {
    if |s| > 0 {
      var rest := Split(s[1..], sep);
      if s[0] == sep {
        if i > 0 {
          SplitPieceIsPart(s[1..], sep, i - 1);
        }
      } else if i == 0 {
        SplitPieceIsPart(s[1..], sep, 0);
        assert Split(s, sep)[0] == [s[0]] + rest[0];
      } else {
        SplitPieceIsPart(s[1..], sep, i);
        assert Split(s, sep)[i] == rest[i];
      }
    }
  }

  /** A string without the separator is a single piece. */
  lemma {:induction false} SplitNoSep(s: string, sep: char)
    requires sep !in s
    ensures Split(s, sep) == [s]
  {
    if |s| > 0 {
      assert sep !in s[1..];
      SplitNoSep(s[1..], sep);
      assert [s[0]] + s[1..] == s;
    }
  }

  /** Line pieces of `s.split(/\r?\n/)`: split at `\n`; a `\r` just before
      a `\n` belongs to the separator, so every piece but the last loses a
      final `\r`, and the last piece is kept whole. */
  function SplitCrLf(s: string): (r: seq<string>)
    ensures |r| == |Split(s, '\n')|
    ensures forall i :: 0 <= i < |r| ==> r[i] == Split(s, '\n')[i] || r[i] + "\r" == Split(s, '\n')[i]
    ensures r[|r| - 1] == Split(s, '\n')[|r| - 1]
  {
    var parts := Split(s, '\n');
    seq(|parts|, i requires 0 <= i < |parts| => if i < |parts| - 1 then DropCr(parts[i]) else parts[i])
  }

  /** Without carriage returns, `split(/\r?\n/)` is `split('\n')`. */
  lemma SplitCrLfWithoutCr(s: string)
    requires '\r' !in s
    ensures SplitCrLf(s) == Split(s, '\n')
  {
    var parts := Split(s, '\n');
    forall i | 0 <= i < |parts| ensures '\r' !in parts[i] {
      SplitPieceIsPart(s, '\n', i);
    }
  }

  function DropCr(s: string): string {
    if |s| > 0 && s[|s| - 1] == '\r' then s[..|s| - 1] else s
  }

  /** The set of non-empty trimmed lines: what the whitelist and hash-list
      loaders collect, one line at a time. */
  function TrimmedSet(lines: seq<string>): set<string> {
    if |lines| == 0 then {}
    else
      var l := lines[|lines| - 1];
      TrimmedSet(lines[..|lines| - 1]) + (if Trim(l) != "" then {Trim(l)} else {})
  }

  /** Line `l` contributes `x` to the collected set. */
  predicate Keeps(l: string, x: string) {
    Trim(l) != "" && Trim(l) == x
  }

  /** `TrimmedSet` holds exactly the trimmed forms of the non-blank lines. */
  lemma TrimmedSetMembers(lines: seq<string>, x: string)
    ensures x in TrimmedSet(lines) <==> exists i :: 0 <= i < |lines| && Keeps(lines[i], x)
  {
    if x in TrimmedSet(lines) {
      var i := TrimmedSetWitness(lines, x);
    }
    if exists i :: 0 <= i < |lines| && Keeps(lines[i], x) {
      var i :| 0 <= i < |lines| && Keeps(lines[i], x);
      TrimmedSetHas(lines, i);
    }
  }

  /** Every collected hash comes from some line. */
  lemma {:induction false} TrimmedSetWitness(lines: seq<string>, x: string) returns (i: nat)
    requires x in TrimmedSet(lines)
    ensures i < |lines| && Keeps(lines[i], x)
  {
    var init := lines[..|lines| - 1];
    if x in TrimmedSet(init) {
      i := TrimmedSetWitness(init, x);
      assert lines[i] == init[i];
    } else {
      i := |lines| - 1;
    }
  }

  /** Every non-blank line is collected. */
  lemma {:induction false} TrimmedSetHas(lines: seq<string>, i: nat)
    requires i < |lines| && Trim(lines[i]) != ""
    ensures Trim(lines[i]) in TrimmedSet(lines)
  {
    if i < |lines| - 1 {
      var init := lines[..|lines| - 1];
      assert init[i] == lines[i];
      TrimmedSetHas(init, i);
    }
  }

  /** Two line lists that trim alike collect the same set. */
  lemma {:induction false} TrimmedSetPointwise(a: seq<string>, b: seq<string>)
    requires |a| == |b|
    requires forall i :: 0 <= i < |a| ==> Trim(a[i]) == Trim(b[i])
    ensures TrimmedSet(a) == TrimmedSet(b)
  {
    if |a| > 0 {
      TrimmedSetPointwise(a[..|a| - 1], b[..|b| - 1]);
    }
  }

  /** A `\r` left at the end of a piece never survives trimming. */
  lemma TrimDropCr(s: string)
    ensures Trim(DropCr(s)) == Trim(s)
  {
    if |s| > 0 && s[|s| - 1] == '\r' {
      assert TrimEnd(s) == TrimEnd(s[..|s| - 1]);
    }
  }

  /** Once lines are trimmed, splitting at `\r?\n` and at `\n` agree. */
  lemma TrimmedSetCrLf(s: string)
    ensures TrimmedSet(SplitCrLf(s)) == TrimmedSet(Split(s, '\n'))
  {
    var parts := Split(s, '\n');
    var crlf := SplitCrLf(s);
    forall i | 0 <= i < |parts| ensures Trim(crlf[i]) == Trim(parts[i]) {
      if i < |parts| - 1 {
        TrimDropCr(parts[i]);
      }
    }
    TrimmedSetPointwise(crlf, parts);
  }

  /** One leading and one trailing character from `quotes` removed:
      `replace(/^["']|["']$/g, '')` with `quotes == {'"', '\''}`,
      `replace(/^"|"$/g, '')` with `quotes == {'"'}`. */
  function Unquote(s: string, quotes: set<char>): (r: string)
    ensures |s| - 2 <= |r| <= |s|
    ensures (|s| == 0 || (s[0] !in quotes && s[|s| - 1] !in quotes)) ==> r == s
    ensures |s| >= 2 && s[0] in quotes && s[|s| - 1] in quotes ==> r == s[1..|s| - 1]
    ensures |s| == 1 && s[0] in quotes ==> r == ""
    ensures |s| >= 1 && s[0] in quotes && s[|s| - 1] !in quotes ==> r == s[1..]
    ensures |s| >= 1 && s[0] !in quotes && s[|s| - 1] in quotes ==> r == s[..|s| - 1]
  {
    var t := if |s| > 0 && s[0] in quotes then s[1..] else s;
    if |t| > 0 && t[|t| - 1] in quotes then t[..|t| - 1] else t
  }

  const Quotes: set<char> := {'"', '\''}
  const DoubleQuote: set<char> := {'"'}

  /** Wrapping in double quotes is undone by either quote-stripping pattern. */
  lemma UnquoteQuoted(x: string, quotes: set<char>)
    requires '"' in quotes
    ensures Unquote("\"" + x + "\"", quotes) == x
  {
  }

  function LowerChar(c: char): char {
    if 'A' <= c <= 'Z' then (c as int + 32) as char else c
  }

  /** `toLowerCase()` on the ASCII letters: no upper-case letter is left,
      each one becomes the letter 32 code points above it, and every other
      character stays where it was. */
  function Lower(s: string): (r: string)
    ensures |r| == |s|
    ensures forall i :: 0 <= i < |r| ==> !('A' <= r[i] <= 'Z')
    ensures forall i :: 0 <= i < |s| && 'A' <= s[i] <= 'Z' ==> r[i] as int == s[i] as int + 32
    ensures forall i :: 0 <= i < |s| && !('A' <= s[i] <= 'Z') ==> r[i] == s[i]
  {
    seq(|s|, i requires 0 <= i < |s| => LowerChar(s[i]))
  }

  lemma LowerIdempotent(s: string)
    ensures Lower(Lower(s)) == Lower(s)
  {
  }

  /** `Array.prototype.indexOf`: the first position of `x`, or -1. */
  function IndexOf(xs: seq<string>, x: string): (r: int)
    ensures -1 <= r < |xs|
    ensures r == -1 <==> x !in xs
    ensures r >= 0 ==> xs[r] == x
  {
    if |xs| == 0 then -1
    else if xs[0] == x then 0
    else
      var k := IndexOf(xs[1..], x);
      if k == -1 then -1 else k + 1
  }

  /** No earlier position holds `x`: the header's first matching column wins. */
  lemma {:induction false} IndexOfIsFirst(xs: seq<string>, x: string)
    ensures IndexOf(xs, x) >= 0 ==> forall j :: 0 <= j < IndexOf(xs, x) ==> xs[j] != x
  {
    if |xs| > 0 && xs[0] != x {
      IndexOfIsFirst(xs[1..], x);
      if IndexOf(xs, x) >= 0 {
        forall j | 0 <= j < IndexOf(xs, x) ensures xs[j] != x {
          if j > 0 {
            assert xs[j] == xs[1..][j - 1];
          }
        }
      }
    }
  }

  predicate StartsWith(s: string, prefix: string) {
    |prefix| <= |s| && s[..|prefix|] == prefix
  }

  predicate EndsWith(s: string, suffix: string) {
    |suffix| <= |s| && s[|s| - |suffix|..] == suffix
  }
}
